=== FILE: README.md ===
# PDF batch renamer — a Dafny model

The renamer takes a folder of files (PDFs by default), a spreadsheet, and an
output format. It gives every file a new name built from one spreadsheet row.
It works as a four-stage wizard:

1. Choose the folder. A folder holding a single PDF can be split into
   one-file-per-chunk PDFs in a `split` sub-folder. The model loads that
   sub-folder afterwards.
2. Choose the spreadsheet (`.xls` or `.xlsx`). Then pick the columns in a
   paginated, searchable picker.
3. Compose the output format in a drag-and-drop dialog. The chosen column
   names are placed in order, with separator entries between them and the
   file extension after them.
4. Rename. The files are taken in natural order. File `i` gets the template
   with every chosen column name replaced by row `i`'s cell value. Its suffix
   is kept, and so is its folder unless the generated name contains a '/'
   (a relative name such as "2024/05" moves the file into a sub-folder, and
   a name starting with '/' replaces the folder, as pathlib joins them).

The model is a set of pure Dafny functions over immutable records:

- `Results`, `Text`, `Replace`, `Paths`, `NaturalSort` and `Arith` model the
  parts of Python the code relies on:
  - `str.replace`, `str.strip`, `str.lower` and `in`;
  - `os.path.splitext`, and pathlib's `suffix`, `name`, `parent` and `/`;
  - `natsort.natsorted`;
  - `math.ceil` of a quotient, and `round`.
- `FileManager` is `file_manager.py`. The directory is given as what the file
  system reports. A rename pass is a plan of moves, applied to a map from paths
  to contents.
- `ExcelParser` is `excel_parser.py`. The sheet is a table of typed cells.
- `PdfSplitter` is `pdf_splitter.py`. The page count is an input.
- `DragAndDrop` is `gui_drag_and_drop.py`: the format dialog's state and its
  events (typing in an entry, dropping a label at a pixel position,
  accepting).
- `PaginatedSelection` is `gui_paginated_selection.py`: the picker's state and
  its events.
- `BatchRenamer` is `Application` in `gui_batch_renamer.py`. The wizard state
  is a record, and every button handler is a transition. The dialog answers
  and what the file system reports are parameters.

Where the description of the program and its code disagree, the model follows
the code:

- The separator entries accept only the characters `- _ , ;` and space
  (`ALLOWED_CHARS`, `gui_drag_and_drop.py:6`). Letters and digits are refused
  (`DragAndDrop.RejectsLettersAndDigits`).
- Two of those separators, `,` and `;`, are refused again at renaming time by
  the pattern `^[\w\-. ]+$` (`BatchRenamer.SeparatorsRejectedAtRename`).
- Substitution replaces the columns one after another, in the order chosen. A
  cell value that contains a later column's name is therefore substituted
  again. "No column name is left in the result" holds only when no value
  contains a column name (`ExcelParser.SubstituteUntouched`,
  `ExcelParser.SubstituteAppend`).
- `build_filename` always appends the extension. `generate_formatted_names`
  removes it again with `os.path.splitext` (`ExcelParser.ExtensionDiscarded`).

## Model

| member | source | states |
|---|---|---|
| Arith.CeilDiv | gui_paginated_selection.py:129 | `ceil(n / per)` for a positive `per`: the least `k` with `k * per >= n` (0 for `n = 0`) |
| Arith.CeilDivLeast | gui_paginated_selection.py:129 | every `k` with `k * per >= n` is at least the ceiling, so it is the least such count |
| Text.Lower | file_manager.py:46 | `str.lower` keeps the length and maps each character on its own: A–Z go to a–z, every other character is kept |
| Text.LowerIdempotent | gui_paginated_selection.py:193-196 | lower-casing twice is lower-casing once |
| Text.LowerAppend | gui_paginated_selection.py:193-196 | lower-casing distributes over concatenation |
| Text.Strip | excel_parser.py:58 | `str.strip()` gives a contiguous piece of the input. Everything cut from either end is whitespace, and the result neither starts nor ends with whitespace |
| Text.StripEmptyIff | excel_parser.py:58 | `strip()` gives "" exactly when the input is all whitespace |
| Text.StripUnique | excel_parser.py:58 | any piece with the two stripping properties is the one `strip()` returns |
| Text.StripIdempotent | excel_parser.py:58 | stripping twice is stripping once |
| Text.Contains | gui_paginated_selection.py:196 | `q in s` holds exactly when `q` occurs at some position of `s` |
| Text.IntText | excel_parser.py:56-58 | `str(int)` is nonempty, and it starts with a digit exactly for non-negative values |
| Text.NatTextValue | excel_parser.py:56-58 | the decimal text of `n` reads back as `n` |
| Text.IntTextRoundTrip | excel_parser.py:56-58 | parsing `str(i)` gives back `i` |
| Text.IntTextInjective | excel_parser.py:56-58 | different integers have different texts |
| Replace.ReplaceAll | excel_parser.py:59 | `str.replace` leaves a text without the pattern unchanged |
| Replace.Split | excel_parser.py:59 | cutting at the pattern gives at least one piece |
| Replace.JoinSplit | excel_parser.py:59 | cutting at the pattern and joining with it again gives the text back |
| Replace.ReplaceAllIsJoinOfSplit | excel_parser.py:59 | `s.replace(p, r)` is the pieces of `s` cut at `p`, joined with `r` |
| Replace.SplitIsLeftmostCut | excel_parser.py:59 | the cut is at leftmost, non-overlapping occurrences: no piece holds the pattern, even across its end |
| Replace.LeftmostCutIsSplit | excel_parser.py:59 | any leftmost cut that joins back to `s` is the cut of `s`, so the description is unique |
| Replace.ReplaceAllByCut | excel_parser.py:59 | replacing is joining any leftmost cut of the text with the replacement |
| Replace.ReplaceWithItself | excel_parser.py:59 | replacing a pattern with itself changes nothing, for the empty pattern too |
| Replace.ReplaceEmptyWithEmpty | excel_parser.py:59 | replacing "" with "" changes nothing |
| Paths.Splitext | excel_parser.py:49 | `splitext` splits the path into root + ext. The ext is "" or a dot followed by no dot and no '/', and a non-empty ext leaves a non-dot character in the root's last component |
| Paths.SplitextOfAppended | excel_parser.py:49 | appending a one-dot extension to a stem whose name is not all dots splits back into that stem and extension |
| Paths.Name | file_manager.py:84-86 | `Path.name` holds no '/' and is no longer than the path |
| Paths.NameIsTail | file_manager.py:84-86 | `Path.name` is the longest tail of the path without '/': it ends the path, and every longer tail holds a '/' |
| Paths.Suffix | file_manager.py:46 | `Path.suffix` is "" or a '.' and at least one more character, with no other '.', no '/', and a strict tail of the name |
| Paths.JoinPath | file_manager.py:86 | `folder / name` ends with the name. A name without '/' becomes the path's name, and an absolute name replaces the folder |
| Paths.AbsoluteJoin | file_manager.py:86 | a name starting with '/' joined onto any folder is the name itself |
| Paths.Parent | file_manager.py:86 | `Path.parent` is never empty: "." for a bare name, "/" in the root |
| Paths.JoinParentName | file_manager.py:84-86 | a path whose last '/' is not doubled is its parent joined with its name |
| Paths.ParentOfJoin | file_manager.py:86 | the parent of `folder / name` is the folder |
| Paths.ParentIsDirectoryForm | file_manager.py:86 | the parent of a path without "//" is "/" or has no trailing '/' |
| Paths.SuffixOfRenamed | file_manager.py:85-86 | `folder / (name + suffix)` has that suffix |
| NaturalSort.LexStrictTotalOrder | file_manager.py:57 | comparing element by element, with a prefix first, is a strict total order whenever the element order is |
| NaturalSort.Chunks | file_manager.py:57 | the runs of a string: number and text chunks alternate, text chunks are never empty, and the first is a number exactly when the string starts with a digit |
| NaturalSort.Key | file_manager.py:57 | the natsort key starts with a text chunk (empty when the string starts with a digit), and text and number chunks alternate |
| NaturalSort.ChunkLtStrictTotalOrder | file_manager.py:57 | the order on natsort key chunks (text by code point, numbers by value; a fixed order across the two kinds, which keys never compare) is a strict total order |
| NaturalSort.NaturalLeTotal | file_manager.py:57 | any two paths are comparable in natural order |
| NaturalSort.NaturalLeTransitive | file_manager.py:57 | natural order is transitive |
| NaturalSort.Insert | file_manager.py:57 | inserting into a naturally sorted list gives a sorted permutation of the list plus the element |
| NaturalSort.Sort | file_manager.py:57 | `natsorted` returns a permutation of its input, in natural order |
| FileManager.RegularFiles | file_manager.py:42 | keeps exactly the entries that are regular files |
| FileManager.RegularFilesFacts | file_manager.py:43-48 | "no files" holds exactly when no entry is a file. "One extension" holds exactly when every file has the first file's lower-cased suffix, i.e. exactly when the suffixes are not mixed |
| FileManager.GetFilePathsAndExtension | file_manager.py:37-59 | each error holds exactly when its condition does: missing, not a folder, no files, mixed suffixes, suffix not allowed (in that order). On success every file has the returned lower-case extension, which is allowed, and the paths are a naturally sorted permutation of the folder joined with the file names |
| FileManager.RenameFiles | file_manager.py:75-86 | after one leading "" name is dropped, the plan exists exactly when the counts agree (else it is the count error). Move `i` takes file `i` to `parent / (name i + suffix)` with pathlib's join, so a name starting with '/' leaves the folder |
| FileManager.DropLeadingBlank | file_manager.py:75-77 | exactly one leading "" name is discarded, and only when it is first |
| FileManager.Destination | file_manager.py:84-86 | a name without '/' plus the suffix becomes the target's name. A name starting with '/' plus the suffix is the whole target |
| FileManager.AbsoluteNameLeavesFolder | file_manager.py:84-86 | a generated name "/x" moves a file from any other folder into the root |
| FileManager.DestinationKeepsFolderAndSuffix | file_manager.py:84-86 | the new path has the old path's folder and suffix, and the name is the new name plus the suffix |
| FileManager.RenameKeepsFolderAndSuffix | file_manager.py:83-88 | every planned move keeps the file in its folder and keeps its suffix |
| FileManager.Execute | file_manager.py:83-88 | applying the plan stops at the first move whose source is gone, and that index is within the plan |
| FileManager.MoveFile | file_manager.py:88 | one rename: the target holds the source's contents, the source is gone unless it is the target, and every other file is kept |
| FileManager.ExecuteStopsWithoutRollback | file_manager.py:83-88 | when move `k` fails, the moves before it are done and are not undone, and the source of move `k` was missing |
| FileManager.CollisionFreeExecution | file_manager.py:83-88 | when no source is repeated, no target already exists or is another move's source, every move succeeds. Afterwards the files are the old ones minus the sources plus the targets, each target holds its source's contents, and other files are untouched |
| ExcelParser.LoadExcelDataframe | excel_parser.py:24-28 | a missing file is `FileNotFoundError`, and an unreadable one is an error. Otherwise the sheet is returned with its own column list |
| ExcelParser.CellText | excel_parser.py:56-58 | the cell's text, stripped, with a whole float written as an integer: a piece of its text without whitespace at either end |
| ExcelParser.CellRepr | excel_parser.py:54-58 | an integer cell, and a float holding a whole number, print as text that parses back to their integer |
| ExcelParser.Fill | excel_parser.py:59 | replacing one column's name is cutting the template at the name and joining with the cell text |
| ExcelParser.WholeFloatAsInteger | excel_parser.py:56-57 | a float holding a whole number reads exactly like that integer, and parses back to it |
| ExcelParser.Substitute | excel_parser.py:52-59 | substituting one row succeeds exactly when the row has every chosen column. On failure the error names the first chosen column the row lacks |
| ExcelParser.SubstituteAppend | excel_parser.py:53-59 | substitution is sequential: the columns `a + b` are applied as `a`, then `b` to that result |
| ExcelParser.SubstituteUntouched | excel_parser.py:53-59 | a template holding none of the column names is returned unchanged |
| ExcelParser.SubstituteOneColumn | excel_parser.py:53-59 | one column replaces every leftmost occurrence of its name with the cell text |
| ExcelParser.GenerateFormattedNames | excel_parser.py:49-61 | the names come out exactly when every row has every chosen column. Then there is one name per row, in row order, each the substitution into the template's root. Otherwise some row's error is reported |
| ExcelParser.NamesFor | excel_parser.py:50-61 | the row loop: succeeds exactly when every row does, keeping row order |
| ExcelParser.GenerateSucceedsIffColumnsExist | excel_parser.py:49-61 | when every row has the sheet's columns and there is a row, the names come out exactly when every chosen column is a sheet column |
| ExcelParser.ExtensionDiscarded | excel_parser.py:48-49 | the extension of the format does not reach the names: formatting `stem + ext` is formatting `stem` |
| DragAndDrop.ValidateInput | gui_drag_and_drop.py:139-146 | an entry value is accepted exactly when every character is one of `-_,; ` (so "" is accepted) |
| DragAndDrop.RejectsLettersAndDigits | gui_drag_and_drop.py:6 | a value holding an ASCII letter or digit is refused |
| DragAndDrop.Keystroke | gui_drag_and_drop.py:109-112 | an edit that the validator accepts is taken, a refused edit keeps the current text, and a valid entry stays valid |
| DragAndDrop.EntryStaysValid | gui_drag_and_drop.py:109-112 | after any sequence of edits an entry that started valid holds only allowed characters |
| DragAndDrop.NormalizeExtension | gui_drag_and_drop.py:62-63 | the extension starts with '.': kept if it already does, else a '.' is put in front |
| DragAndDrop.NormalizeExtensionIdempotent | gui_drag_and_drop.py:62-63 | normalising twice is normalising once |
| DragAndDrop.Open | gui_drag_and_drop.py:79-118 | label `i` shows word `i`. There is one empty entry for each word but the last. The extension is normalised, and no name has been accepted yet |
| DragAndDrop.ColumnsDistinct | gui_drag_and_drop.py:79-128 | a label, an entry and the extension label never share a grid column, and all of them lie within the `2n` columns configured |
| DragAndDrop.RoundHalfEven | gui_drag_and_drop.py:156 | `round(n / d)` is within half a unit of the quotient, and on a tie it is even |
| DragAndDrop.RoundHalfEvenUnique | gui_drag_and_drop.py:156 | any integer with those two properties is the rounded value |
| DragAndDrop.TargetSlot | gui_drag_and_drop.py:156-157 | the drop position gives a label index in range |
| DragAndDrop.TargetSlotNearest | gui_drag_and_drop.py:156-157 | the chosen slot is the nearest slot position to the drop point |
| DragAndDrop.Reorder | gui_drag_and_drop.py:156-160 | the dragged label ends at the target slot. The others keep their relative order, and the labels are a permutation of the old ones |
| DragAndDrop.ReorderInPlace | gui_drag_and_drop.py:156-160 | dropping a label on its own slot changes nothing |
| DragAndDrop.DropBeyondEnds | gui_drag_and_drop.py:157 | a drop past either end acts as a drop on the end slot |
| DragAndDrop.SlotAtRight | gui_drag_and_drop.py:156-157 | a drop at or right of the last label's column goes to the last slot |
| DragAndDrop.SlotAtLeft | gui_drag_and_drop.py:156-157 | a drop at or left of the first column goes to slot 0 |
| DragAndDrop.RemoveAt | gui_drag_and_drop.py:158-159 | removing position `i` keeps the elements before it and shifts those after it down by one |
| DragAndDrop.InsertAt | gui_drag_and_drop.py:160 | `list.insert(i, x)` puts `x` at `i`, keeps the elements before it and shifts the rest up by one |
| DragAndDrop.RemoveInserted | gui_drag_and_drop.py:158-160 | removing what was just inserted gives the list back |
| DragAndDrop.DropLabel | gui_drag_and_drop.py:148-164 | a drop reorders only the labels. The entries stay in place, and the extension and accepted name are kept |
| DragAndDrop.BuildFilename | gui_drag_and_drop.py:166-177 | position by position, the text of the label now there followed by the entry at that position (nothing past the entries), then the extension; so the name ends with the extension |
| DragAndDrop.Interleave | gui_drag_and_drop.py:171-175 | the loop from label `k` on is the concatenation of the positional pieces from `k` on |
| DragAndDrop.DropKeepsEntries | gui_drag_and_drop.py:148-177 | for any entries: after a drop the dragged label's text sits at the target slot followed by the entry already there, and every position keeps its own entry |
| DragAndDrop.UniformSeparator | gui_drag_and_drop.py:171-175 | with every entry holding `sep`, the interleaving from label `k` on is the label texts from `k` joined by `sep` |
| DragAndDrop.BuildWithUniformSeparator | gui_drag_and_drop.py:166-177 | with one separator everywhere, the name is the label texts in order joined by it, then the extension |
| DragAndDrop.DropKeepsSeparators | gui_drag_and_drop.py:148-177 | after a drop, with one separator everywhere, the name is the reordered texts joined by it, then the extension |
| DragAndDrop.Accept | gui_drag_and_drop.py:179-192 | confirming stores the built name, and declining leaves the dialog as it was. Labels, entries and extension never change |
| PaginatedSelection.Slice | gui_paginated_selection.py:143 | a Python slice with clamped bounds: the elements in `[a, min(b, len))`, empty once `a` is past the end |
| PaginatedSelection.PageOptions | gui_paginated_selection.py:141-146 | a page holds at most `items_per_page` options. It is nonempty exactly for pages up to the page count |
| PaginatedSelection.FirstPagesArePrefix | gui_paginated_selection.py:141-143 | the first `k` pages in order are the first `k * per` options |
| PaginatedSelection.PagesCoverAll | gui_paginated_selection.py:126-143 | all pages together list every filtered option once, in order |
| PaginatedSelection.Position | gui_paginated_selection.py:150-155 | option `k` of a page goes to a column and row in range, filled column by column |
| PaginatedSelection.PositionsDistinct | gui_paginated_selection.py:150-155 | no two options of a page share a grid cell |
| PaginatedSelection.Open | gui_paginated_selection.py:21-33 | a new picker shows every option from page 1 with nothing selected, in a valid state |
| PaginatedSelection.SelectOption | gui_paginated_selection.py:169-174 | the option is selected exactly when its box is ticked, and no other option changes |
| PaginatedSelection.Click | gui_paginated_selection.py:158-174 | a click toggles the clicked option's selection, keeps the page and the lists, and keeps the state valid |
| PaginatedSelection.PrevPage | gui_paginated_selection.py:176-180 | goes one page back unless on page 1. It keeps the selection and the state valid |
| PaginatedSelection.NextPage | gui_paginated_selection.py:182-186 | goes one page on unless on the last. It keeps the selection and the state valid |
| PaginatedSelection.Matching | gui_paginated_selection.py:195-196 | the options kept are exactly those whose lower-cased text contains the query |
| PaginatedSelection.MatchingAppend | gui_paginated_selection.py:195-196 | filtering keeps the options' order: it distributes over concatenation |
| PaginatedSelection.MatchingIdempotent | gui_paginated_selection.py:195-196 | filtering twice with one query is filtering once |
| PaginatedSelection.EmptyQueryMatchesAll | gui_paginated_selection.py:194-198 | the empty query keeps every option |
| PaginatedSelection.FilterOptions | gui_paginated_selection.py:188-202 | filtering goes back to page 1 and keeps the selection. The shown list is the matching options in their original order, duplicates included (all of them for an empty query), and the state stays valid |
| PdfSplitter.SplitNameInjective | pdf_splitter.py:39-41 | different chunk numbers give different `split_k.pdf` names |
| PdfSplitter.SplitName | pdf_splitter.py:39-41 | `split_k.pdf` is a plain file name (no '/') ending in ".pdf" |
| PdfSplitter.SplitFilesArePdfs | pdf_splitter.py:39-41 | every written file has the suffix ".pdf", so the `split` folder lists as PDFs |
| PdfSplitter.ChunkAt | pdf_splitter.py:33-41 | chunk `k` starts at page `k * per` and is named `split_{k+1}.pdf`. When it starts before the last page it holds 1 to `per` pages and ends no later than the last |
| PdfSplitter.PlanChunks | pdf_splitter.py:33-41 | a chunk size of 0 raises and a negative one gives no chunks. A positive one gives `ceil(total / per)` consecutive chunks from page 0 to the last page, each `per` pages but the last (1 to `per`), named `split_1.pdf` upwards |
| PdfSplitter.ChunkAtShape | pdf_splitter.py:33-41 | chunk `k` is pages `[k*per, min(k*per + per, total))`, and those chunks have the shape above |
| PdfSplitter.ChunksPartitionPages | pdf_splitter.py:33-37 | every page lies in exactly one chunk, the one numbered by its index divided by the chunk size |
| PdfSplitter.ChunkNamesDistinct | pdf_splitter.py:39-43 | no two chunks are written to the same file |
| PdfSplitter.SplitPdf | pdf_splitter.py:23-50 | the folder is created when missing, even if the split then fails. An unreadable input or a chunk size of 0 returns False with nothing written. A negative chunk size returns True with nothing written. A positive one writes one file per chunk into the folder and returns True |
| BatchRenamer.Start | gui_batch_renamer.py:72-90 | the wizard starts on stage 1 with the placeholder folder and spreadsheet, nothing loaded or chosen, and both buttons disabled (lines 167-191) |
| BatchRenamer.UpdateButtons | gui_batch_renamer.py:212-240 | only the two button flags change. Previous is on exactly off the first stage, and Next exactly when the stage is ready |
| BatchRenamer.IsStageReady | gui_batch_renamer.py:225-240 | a stage is ready only on stages 1-3: the last stage never is |
| BatchRenamer.ChangePage | gui_batch_renamer.py:201-209 | the stage index stays in `0..3`, a move leaves the buttons current, and only the stage and buttons ever change |
| BatchRenamer.ChangePageKeepsRange | gui_batch_renamer.py:194-210 | the stage index stays in `0..3`. A step into `0..3` moves there with the buttons current and the data untouched, and a step out of it changes nothing |
| BatchRenamer.NavigationGuarded | gui_batch_renamer.py:194-240 | with current buttons, Next leaves exactly the ready stages, one stage on, and Previous moves one stage back exactly off the first |
| BatchRenamer.LoadOriginalNamesAsWritten | gui_batch_renamer.py:374-445 | loading keeps the stage, chosen columns and format. A failed listing changes nothing. Any listing other than a single PDF becomes the files, in the same folder, with the buttons current and the extension taken from the first file when files and an extension were found. Only the folder, files, extension and buttons can change |
| BatchRenamer.SettleLoad | gui_batch_renamer.py:385-442 | the branches that end the load change only the folder, files, extension and buttons |
| BatchRenamer.FinishLoad | gui_batch_renamer.py:427-435 | with files and an extension found, the extension becomes `os.path.splitext` of the first file and the buttons are updated. Otherwise nothing changes. The files, folder and page are never touched |
| BatchRenamer.LoadOriginalNames | gui_batch_renamer.py:374-445 | every ending leaves the buttons current and keeps the stage, columns and format. A failed listing clears the files, and any listing other than a single PDF becomes the files, in both cases with the folder kept. When that listing found files and an extension, the extension becomes that of the first file. The spreadsheet, sheet, columns and format are never touched |
| BatchRenamer.SelectDirectory | gui_batch_renamer.py:315-337 | a cancelled dialog or a read-only folder changes nothing. Otherwise the buttons are current, and unless the folder holds a single PDF it becomes the folder with its listed files (none when the listing fails) |
| BatchRenamer.SelectDirectoryAsWritten | gui_batch_renamer.py:315-337 | a cancelled dialog or a read-only folder changes nothing. Otherwise, unless it holds a single PDF, the folder becomes the chosen one with its listed files, and a failed listing keeps the previous files |
| BatchRenamer.SinglePdfPrompt | gui_batch_renamer.py:385-432 | as written, for a folder holding one PDF: declining resets the folder, the files and the extension and leaves the buttons alone. After a chunk size is given, the folder becomes `<folder>/split`: a failed split changes nothing else, and a successful one reloads the files from there. Cancelling the chunk-size prompt goes on with the single file |
| BatchRenamer.StaleNextAfterDecline | gui_batch_renamer.py:385-426 | as written, declining the split of a single PDF empties the files but leaves Next enabled, and pressing it leaves stage 1 |
| BatchRenamer.DeclineDisablesNext | gui_batch_renamer.py:419-426 | with the buttons updated on that branch, Next is disabled and pressing it does nothing |
| BatchRenamer.FailedSplitLeavesFileOutside | gui_batch_renamer.py:401-418 | as written, a failed split leaves the folder at `<folder>/split` while the file held is the PDF in `<folder>` |
| BatchRenamer.FailedSplitKeepsFolder | gui_batch_renamer.py:401-418 | with the corrected load, a failed split keeps the folder, so the PDF stays in the folder shown and the buttons are current |
| BatchRenamer.StaleFilesAfterFailedListing | gui_batch_renamer.py:326-331 | as written, a failed listing keeps the previous folder's files under the new folder's name, with Next still enabled on stage 1 |
| BatchRenamer.FailedListingClearsFiles | gui_batch_renamer.py:443-445 | with the files cleared on a failed listing, Next is disabled on stage 1 |
| BatchRenamer.ListingInDirectory | file_manager.py:42-57 | every path a successful listing returns lies directly in the listed folder |
| BatchRenamer.LoadKeepsFilesInDirectory | gui_batch_renamer.py:382-414 | the corrected load keeps every file inside the folder it shows, whatever the split answers |
| BatchRenamer.SelectDirectoryKeepsFilesInDirectory | gui_batch_renamer.py:315-331 | after choosing a folder, every file held lies in the folder shown |
| BatchRenamer.LoadDataframe | gui_batch_renamer.py:447-462 | a failed load changes nothing. A successful one replaces the table and the columns on offer |
| BatchRenamer.SelectExcelFile | gui_batch_renamer.py:339-372 | a cancelled dialog, an extension other than .xls/.xlsx (case-blind), or an unreadable file changes nothing. Otherwise the path is taken, the buttons are current, and the sheet and its columns replace the old ones if it loads; a failed load keeps the old sheet. Only the path, sheet, columns and buttons can change |
| BatchRenamer.ClosePickerAsWritten | gui_batch_renamer.py:464-486 | as written, the picker's ticked set becomes the chosen columns however the picker was closed. Only the chosen columns and buttons change |
| BatchRenamer.ClosePicker | gui_paginated_selection.py:204-217 | confirming takes the ticked set, and cancelling keeps the previous choice. The buttons are current, and nothing else changes |
| BatchRenamer.CancelledPickerStillApplies | gui_paginated_selection.py:215-217 | reopening the picker, ticking "B" and cancelling replaces the chosen "A" by "B" as written, and keeps "A" when corrected |
| BatchRenamer.ProcessDragAndDrop | gui_batch_renamer.py:488-497 | the format is the dialog's accepted name, or "" when none was accepted. The buttons are current, and only the format and buttons change |
| BatchRenamer.ConfirmedFormatEnablesNext | gui_batch_renamer.py:237 | on stage 3 an accepted dialog always enables Next, since its name ends in the extension. A dialog closed unaccepted disables it |
| BatchRenamer.FormatMatches | gui_batch_renamer.py:570 | `re.match(r"^[\w\-. ]+$", s)`: a nonempty string of class characters, optionally followed by one final newline |
| BatchRenamer.SeparatorsRejectedAtRename | gui_batch_renamer.py:570 | a format holding ',' or ';' is refused, though the dialog's entries accept both |
| BatchRenamer.Missing | gui_batch_renamer.py:558-562 | the missing columns are exactly the chosen ones not in the sheet |
| BatchRenamer.StartRenaming | gui_batch_renamer.py:553-589 | missing columns are reported first, then an invalid format. A plan exists only for a loaded sheet holding every chosen column, a matching format, and names that came out nonempty. It is `rename_files` on those names. An empty list of generated names stops the renaming |
| BatchRenamer.StartRenamingDecides | gui_batch_renamer.py:553-589 | each check decides the outcome in turn: no sheet with chosen columns raises; missing columns are reported; then an invalid format; then an empty name list; then the plan is `rename_files` on the names, unless generating or planning raises |
| BatchRenamer.PlannedMovesFollowRows | gui_batch_renamer.py:576-584 | in a plan, file `i` (natural order) goes to `parent / (row i's name + suffix)`, after a blank first name is dropped. A name without '/' gives the target's name, and one starting with '/' is the whole target |
| BatchRenamer.MissingColumnsIffNotInSheet | gui_batch_renamer.py:558-568 | with a sheet loaded and columns chosen, renaming stops at the column check exactly when a chosen column is not in the sheet |

## Left out

- Tk widgets, fonts, layout, message boxes, the progress bar, labels and the
  summary text are not modelled. Neither are the `stage_1` … `stage_4`
  handlers, which only rebuild widgets. A yes/no answer or a chosen path is a
  parameter instead.
- Logging is not modelled: it has no effect on the state.
- The file system is not modelled:
  - A directory is a `PathKind` value. Write and read permission are booleans.
  - `Path.resolve()` is not modelled (no symbolic links, no relative
    folders). A listed path is the folder joined with the entry name.
- pandas and PyPDF2 are not modelled:
  - A sheet is a table of typed cells.
  - A document is its page count.
  - Duplicate column labels and rows missing a column are allowed in the
    type but not given pandas' own semantics.
  - Column labels are always strings. A numeric header such as 2024 makes
    pandas produce an integer label, which the replace at excel_parser.py:59
    rejects with a TypeError that gui_batch_renamer.py:587-589 reports. Such
    labels and that error path are not modelled.
- Floating point is not modelled. The text of a fractional float or of a
  date is taken as given (`FractionalFloat`, `OtherCell`).
- `split_pdf` writes each chunk to disk, and `os.rename` can fail for reasons
  other than a missing source. Neither is modelled. `FileManager.Execute`
  models only the failure of a move whose source is missing, with no
  rollback.
- The chunk size typed into the split prompt is carried in `SplitAnswer` but
  not passed on. Whether the split succeeded is an input of the load
  (`SplitAnswer.Split.succeeded`), not the result of `PdfSplitter.SplitPdf`.
- Text.Lower: ASCII case mapping only. Python's full Unicode `str.lower` is
  not modelled.
- BatchRenamer.FormatMatches: `\w` is ASCII letters, digits and `_`. Python's
  Unicode word characters are not modelled.
- PaginatedSelection.Open: `items_per_page` and `num_columns` are fixed at
  their defaults, 20 and 3. The renamer never passes other values.
- BatchRenamer.ClosePickerAsWritten: the enumeration order of
  `list(set)` is an input constrained only to list each picked column once.
- DragAndDrop.RoundHalfEven: `round(drop_x / 240)` is modelled exactly on the
  integer quotient. The float division before it is not modelled, and it is
  exact for any realistic pixel position.
- Paths.JoinPath: a textual join. pathlib's normalisation is not modelled:
  it collapses repeated '/', drops '.' components and a trailing '/'. It
  matters only for generated names holding such sequences.
- NaturalSort.Key: digits are the ASCII digits `0`-`9`. natsort also reads
  other Unicode decimal digits (and lone digits such as '²') as numbers.
- FileManager.GetFilePathsAndExtension: promises a naturally sorted
  permutation, not one particular order. Paths whose natural keys tie (such
  as `a01.pdf` and `a1.pdf`) keep the order `iterdir` gives, and that order is
  unspecified.

## Findings

| source | as written | input that shows it | evidently intended | confidence | as-written member | corrected member |
|---|---|---|---|---|---|---|
| gui_batch_renamer.py:419-426 | Declining to split a single PDF resets the folder and empties the file list, then returns without `update_buttons()`. A failed split (lines 415-418) also returns without `update_buttons()`. | On stage 1 with two files loaded, choose a folder holding one PDF and decline the split. Next stays enabled with no files, and pressing it moves to stage 2. | Every path through the load ends with the buttons updated. | not executed | BatchRenamer.StaleNextAfterDecline | BatchRenamer.DeclineDisablesNext |
| gui_batch_renamer.py:443-445 | `select_directory` sets the new folder (line 326) before loading. When the listing raises, the handler leaves `original_files_list` holding the previous folder's files. | On stage 1 with files loaded from `/a`, choose `/b` holding mixed extensions. The folder shows `/b`, Next stays enabled, and a rename would move `/a`'s files. | A failed listing clears the files, so the state never holds files outside the folder shown. | not executed | BatchRenamer.StaleFilesAfterFailedListing | BatchRenamer.FailedListingClearsFiles |
| gui_batch_renamer.py:401-418 | A chunk size sets the folder to `<folder>/split` (lines 402-404) before splitting. When the split fails, the load returns at line 418 still holding the parent folder's PDF. | Choose a folder holding one unreadable PDF, accept the split and give a chunk size. The folder shows `<folder>/split` and the file list holds `<folder>/x.pdf`. | The files held always lie in the folder shown: a failed split keeps the original folder. | not executed | BatchRenamer.FailedSplitLeavesFileOutside | BatchRenamer.FailedSplitKeepsFolder |
| gui_paginated_selection.py:215-217 | `cancel()` only closes the window. `_process_selection` (gui_batch_renamer.py:478-486) then takes whatever boxes were ticked. | With column "A" chosen, reopen the picker (it starts empty), tick "B" and press CANCEL. The chosen columns become ["B"]. | Cancel closes the window without saving any selection, as its own comment says. | not executed | BatchRenamer.CancelledPickerStillApplies | BatchRenamer.ClosePicker |

=== FILE: arith.dfy ===
/** Integer facts shared by the page and chunk arithmetic. */
module Arith {

  /** `math.ceil(n / per)`. */
  function CeilDiv(n: nat, per: int): (r: nat)
    requires per > 0
    ensures r * per >= n
    ensures r == 0 || (r - 1) * per < n
    ensures r == 0 <==> n == 0
  {
    (n + per - 1) / per
  }

  /** No smaller count of blocks of `per` holds `n` items. */
  lemma CeilDivLeast(n: nat, per: int, k: nat)
    requires per > 0 && k * per >= n
    ensures CeilDiv(n, per) <= k
  {
    var r := CeilDiv(n, per);
    if r > k {
      assert (r - 1) * per >= k * per by {
        MulMonotone(k, r - 1, per);
      }
      assert false;
    }
  }

  lemma MulMonotone(a: int, b: int, c: int)
    requires 0 <= a <= b && c > 0
    ensures a * c <= b * c
  {
    assert b * c == a * c + (b - a) * c;
  }

  lemma MulSucc(a: int, c: int)
    ensures (a + 1) * c == a * c + c
  {
  }

  function Min(a: int, b: int): int { if a <= b then a else b }
  function Max(a: int, b: int): int { if a >= b then a else b }
}

=== FILE: batch_renamer.dfy ===
/** The renamer's four-stage wizard (`Application`) as a record and pure
    transitions: choose a folder of PDFs, choose a spreadsheet and columns,
    compose the output format, then rename. Dialog answers (the chosen path,
    yes/no replies, the chunk size) and what the file system reports are
    inputs of the transitions. */
module BatchRenamer {
  import opened Results
  import opened Text
  import opened Paths
  import opened FileManager
  import opened ExcelParser
  import opened NaturalSort
  import PaginatedSelection
  import DragAndDrop

  const DefaultExcel: string := "No file selected"
  const DefaultDirectory: string := "No folder selected"
  const ValidExtensions: set<string> := {".xls", ".xlsx"}
  const PageCount: int := 4

  /** The wizard's state: the stage index, the chosen folder, the files
      found in it and their extension, the spreadsheet path and table, its
      columns, the chosen columns, the output format, and whether the
      Previous and Next buttons are enabled. */
  datatype App = App(
    page: int,
    directory: string,
    files: seq<string>,
    extension: string,
    excelPath: string,
    table: Option<Table>,
    available: seq<string>,
    selected: seq<string>,
    format: string,
    prevEnabled: bool,
    nextEnabled: bool)

  /** `initialize_variables()` and the pager's buttons, both created
      disabled. */
  function Start(): (app: App)
    ensures app.page == 0 && app.directory == DefaultDirectory && app.excelPath == DefaultExcel
    ensures app.files == [] && app.selected == [] && app.format == [] && app.table.None?
    ensures !app.prevEnabled && !app.nextEnabled
  {
    App(0, DefaultDirectory, [], [], DefaultExcel, None, [], [], [], false, false)
  }

  // ---------------------------------------------------------------------
  // Stages and buttons
  // ---------------------------------------------------------------------

  /** `is_stage_ready()`. The last stage is never ready, so Next can only
      lead to a stage that exists. */
  predicate IsStageReady(app: App)
    ensures IsStageReady(app) ==> 0 <= app.page < PageCount - 1
  {
    if app.page == 0 then app.directory != DefaultDirectory && |app.files| > 1
    else if app.page == 1 then app.excelPath != DefaultExcel && app.selected != []
    else if app.page == 2 then app.format != []
    else false
  }

  /** `update_buttons()`: Previous from `_get_prev_button_state`, Next from
      `is_stage_ready`. */
  function UpdateButtons(app: App): (r: App)
    ensures r.prevEnabled <==> app.page > 0
    ensures r.nextEnabled <==> IsStageReady(app)
    ensures r.(prevEnabled := app.prevEnabled, nextEnabled := app.nextEnabled) == app
  {
    app.(prevEnabled := app.page > 0, nextEnabled := IsStageReady(app))
  }

  /** The buttons show what `update_buttons` would set now. */
  predicate ButtonsCurrent(app: App) {
    app.prevEnabled == (app.page > 0) && app.nextEnabled == IsStageReady(app)
  }

  /** `change_page(direction)`: applied only when the new index is a
      stage. The stage index stays in `0..3`, a move leaves the buttons
      current, and the data is never touched. */
  function ChangePage(app: App, direction: int): (r: App)
    ensures 0 <= app.page < PageCount ==> 0 <= r.page < PageCount
    ensures r.page != app.page ==> ButtonsCurrent(r)
    ensures r.(page := app.page, prevEnabled := app.prevEnabled, nextEnabled := app.nextEnabled) == app
  {
    var next := app.page + direction;
    if 0 <= next < PageCount then UpdateButtons(app.(page := next)) else app
  }

  /** The stage index never leaves `0..3`: a step that would leave the range
      changes nothing, any other moves to the new stage with the buttons
      current and the data untouched. */
  lemma ChangePageKeepsRange(app: App, direction: int)
    requires 0 <= app.page < PageCount
    ensures 0 <= ChangePage(app, direction).page < PageCount
    ensures 0 <= app.page + direction < PageCount ==>
              var r := ChangePage(app, direction);
              && r.page == app.page + direction && ButtonsCurrent(r)
              && r.(page := app.page, prevEnabled := app.prevEnabled, nextEnabled := app.nextEnabled) == app
    ensures !(0 <= app.page + direction < PageCount) ==> ChangePage(app, direction) == app
  {
  }

  /** A press on an enabled Next or Previous button. */
  function PressNext(app: App): App {
    if app.nextEnabled then ChangePage(app, 1) else app
  }

  function PressPrev(app: App): App {
    if app.prevEnabled then ChangePage(app, -1) else app
  }

  /** While the buttons are current, Next only leaves a stage that is ready,
      and never the last one; Previous never leaves the first. */
  lemma NavigationGuarded(app: App)
    requires ButtonsCurrent(app) && 0 <= app.page < PageCount
    ensures PressNext(app) != app ==> IsStageReady(app) && app.page < 3 && PressNext(app).page == app.page + 1
    ensures PressPrev(app) != app ==> app.page > 0 && PressPrev(app).page == app.page - 1
    ensures IsStageReady(app) ==> PressNext(app).page == app.page + 1
    ensures app.page > 0 ==> PressPrev(app).page == app.page - 1
  {
  }

  // ---------------------------------------------------------------------
  // Stage 1: the folder
  // ---------------------------------------------------------------------

  /** The answers to the prompts `load_original_names` shows for a folder
      holding a single PDF: decline the split, cancel the chunk-size prompt,
      or split with a chunk size; a split reports whether it succeeded and
      what the `split` folder then holds, and the reload may prompt again. */
  datatype SplitAnswer =
    | Decline
    | NoChunkSize
    | Split(chunkSize: int, succeeded: bool, splitListing: Listed, next: SplitAnswer)

  /** What `get_file_paths_and_extension` gives for a folder:
      `GetFilePathsAndExtension(folder, node, DefaultAllowed)` for what the
      file system holds at `folder`. */
  type Listed = Result<Listing, ListingError>

  /** A listing of exactly one file, a PDF: the case that prompts for a
      split. */
  predicate SinglePdf(listing: Listed) {
    listing.Ok? && |listing.value.paths| == 1 && Lower(listing.value.extension) == ".pdf"
  }

  /** The files of `app.directory` (as `listing` reports them) loaded into
      the state, with the single-PDF prompt answered by `answer`, exactly as
      `load_original_names` does it: a failed listing changes nothing, and
      the decline and failed-split branches return without updating the
      buttons. */
  function LoadOriginalNamesAsWritten(app: App, listing: Listed, answer: SplitAnswer): (r: App)
    ensures r.page == app.page && r.selected == app.selected && r.format == app.format
    ensures r.(directory := app.directory, files := app.files, extension := app.extension,
               prevEnabled := app.prevEnabled, nextEnabled := app.nextEnabled) == app
    ensures listing.Err? ==> r == app
    ensures listing.Ok? && !SinglePdf(listing) ==>
              && r.files == listing.value.paths && r.directory == app.directory
              && (listing.value.paths != [] && listing.value.extension != [] ==>
                    ButtonsCurrent(r) && r.extension == Splitext(r.files[0]).1)
    decreases answer
  {
    if listing.Err? then app
    else
      var loaded := app.(files := listing.value.paths, extension := listing.value.extension);
      if |loaded.files| == 1 && Lower(loaded.extension) == ".pdf" && answer.Split? && answer.succeeded then
        LoadOriginalNamesAsWritten(loaded.(directory := JoinPath(app.directory, "split")), answer.splitListing, answer.next)
      else
        SettleLoad(loaded, app.directory, answer)
  }

  /** The end of `load_original_names` once the files are known: the
      extension is re-read from the first path and the buttons updated. */
  function FinishLoad(loaded: App): (r: App)
    ensures loaded.files != [] && loaded.extension != [] ==>
              ButtonsCurrent(r) && r.extension == Splitext(loaded.files[0]).1
    ensures !(loaded.files != [] && loaded.extension != []) ==> r == loaded
    ensures r.files == loaded.files && r.directory == loaded.directory && r.page == loaded.page
    ensures r.(extension := loaded.extension, prevEnabled := loaded.prevEnabled, nextEnabled := loaded.nextEnabled) == loaded
  {
    if loaded.files != [] && loaded.extension != [] then
      UpdateButtons(loaded.(extension := Splitext(loaded.files[0]).1))
    else loaded
  }

  /** `load_original_names` with every path ending in `update_buttons`, a
      failed listing clearing the files of the previous folder, and a failed
      split leaving the folder as it was. */
  function LoadOriginalNames(app: App, listing: Listed, answer: SplitAnswer): (r: App)
    ensures ButtonsCurrent(r)
    ensures r.page == app.page && r.selected == app.selected && r.format == app.format
    ensures r.(directory := app.directory, files := app.files, extension := app.extension,
               prevEnabled := app.prevEnabled, nextEnabled := app.nextEnabled) == app
    ensures listing.Err? ==> r.files == [] && r.directory == app.directory
    ensures listing.Ok? && !SinglePdf(listing) ==>
              && r.files == listing.value.paths && r.directory == app.directory
              && (listing.value.paths != [] && listing.value.extension != [] ==> r.extension == Splitext(r.files[0]).1)
    decreases answer
  {
    if listing.Err? then UpdateButtons(app.(files := [], extension := []))
    else
      var loaded := app.(files := listing.value.paths, extension := listing.value.extension);
      if |loaded.files| == 1 && Lower(loaded.extension) == ".pdf" && answer.Decline? then
        UpdateButtons(loaded.(directory := DefaultDirectory, files := [], extension := []))
      else if |loaded.files| == 1 && Lower(loaded.extension) == ".pdf" && answer.Split? && answer.succeeded then
        LoadOriginalNames(loaded.(directory := JoinPath(app.directory, "split")), answer.splitListing, answer.next)
      else
        UpdateButtons(FinishLoad(loaded))
  }

  /** The non-recursive ends of `load_original_names` as written: the
      decline and the failed split (neither updates the buttons) and the
      ordinary end. */
  function SettleLoad(loaded: App, dir: string, answer: SplitAnswer): (r: App)
    ensures r.page == loaded.page && r.selected == loaded.selected && r.format == loaded.format
    ensures r.(directory := loaded.directory, files := loaded.files, extension := loaded.extension,
               prevEnabled := loaded.prevEnabled, nextEnabled := loaded.nextEnabled) == loaded
  {
    if |loaded.files| == 1 && Lower(loaded.extension) == ".pdf" && !answer.NoChunkSize? then
      if answer.Decline? then loaded.(directory := DefaultDirectory, files := [], extension := [])
      else loaded.(directory := JoinPath(dir, "split"))
    else FinishLoad(loaded)
  }

  /** `select_directory()` for the folder `chosen` ("" when the dialog is
      cancelled): a folder without write permission is refused; otherwise it
      becomes the folder, the buttons are updated and the files loaded. */
  function SelectDirectory(app: App, chosen: string, writable: bool, listing: Listed, answer: SplitAnswer): (r: App)
    ensures chosen == [] || !writable ==> r == app
    ensures chosen != [] && writable ==> ButtonsCurrent(r)
    ensures chosen != [] && writable && !SinglePdf(listing) ==>
              && r.directory == chosen
              && (listing.Ok? ==> r.files == listing.value.paths)
              && (listing.Err? ==> r.files == [])
  {
    if chosen == [] || !writable then app
    else LoadOriginalNames(UpdateButtons(app.(directory := chosen)), listing, answer)
  }

  /** The same with the load as written. */
  function SelectDirectoryAsWritten(app: App, chosen: string, writable: bool, listing: Listed, answer: SplitAnswer): (r: App)
    ensures chosen == [] || !writable ==> r == app
    ensures chosen != [] && writable && !SinglePdf(listing) ==>
              && r.directory == chosen
              && (listing.Ok? ==> r.files == listing.value.paths)
              && (listing.Err? ==> r.files == app.files && ButtonsCurrent(r))
  {
    if chosen == [] || !writable then app
    else LoadOriginalNamesAsWritten(UpdateButtons(app.(directory := chosen)), listing, answer)
  }

  /** The single-PDF prompt as written. Declining resets the folder, the
      files and the extension, and leaves the buttons alone. A chunk size
      moves to the `split` folder: after a failed split nothing else
      changes, after a successful one the files are reloaded from there.
      Cancelling the chunk-size prompt goes on with the one file. */
  lemma SinglePdfPrompt(app: App, listing: Listed, answer: SplitAnswer)
    requires listing.Ok? && |listing.value.paths| == 1 && Lower(listing.value.extension) == ".pdf"
    ensures var r := LoadOriginalNamesAsWritten(app, listing, answer);
            var split := JoinPath(app.directory, "split");
            && (answer.Decline? ==>
                  && r.directory == DefaultDirectory && r.files == [] && r.extension == []
                  && r.nextEnabled == app.nextEnabled && r.prevEnabled == app.prevEnabled)
            && (answer.Split? && !answer.succeeded ==>
                  && r.directory == split && r.files == listing.value.paths
                  && r.nextEnabled == app.nextEnabled && r.prevEnabled == app.prevEnabled)
            && (answer.Split? && answer.succeeded && answer.splitListing.Ok?
                && |answer.splitListing.value.paths| > 1 && answer.splitListing.value.extension != [] ==>
                  && r.directory == split && r.files == answer.splitListing.value.paths && ButtonsCurrent(r))
            && (answer.NoChunkSize? ==>
                  && r.directory == app.directory && r.files == listing.value.paths && ButtonsCurrent(r))
  {
    assert Lower(listing.value.extension) != [];
  }

  /** Switching, on stage 1, from a folder of several files to one whose
      listing is a single PDF and declining the split empties the file list
      and resets the folder, yet Next stays enabled: stage 1 can be left
      with no files. */
  lemma StaleNextAfterDecline(app: App, chosen: string, listing: Listed)
    requires app.page == 0 && |app.files| > 1 && chosen != [] && chosen != DefaultDirectory
    requires listing.Ok? && |listing.value.paths| == 1 && Lower(listing.value.extension) == ".pdf"
    ensures var r := SelectDirectoryAsWritten(app, chosen, true, listing, Decline);
            && r.nextEnabled && !IsStageReady(r)
            && r.files == [] && r.directory == DefaultDirectory
            && PressNext(r).page == 1
  {
  }

  /** With the corrected load the same steps leave Next disabled. */
  lemma DeclineDisablesNext(app: App, chosen: string, listing: Listed)
    requires app.page == 0 && chosen != []
    requires listing.Ok? && |listing.value.paths| == 1 && Lower(listing.value.extension) == ".pdf"
    ensures var r := SelectDirectory(app, chosen, true, listing, Decline);
            && !r.nextEnabled && r.files == [] && PressNext(r) == r
  {
  }

  /** Switching to a folder whose listing fails (missing, not a folder, no
      files, mixed or disallowed extensions) keeps the previous folder's
      files under the new folder's name; they are what a rename would then
      move, and on stage 1 Next stays enabled for them. */
  lemma StaleFilesAfterFailedListing(app: App, chosen: string, listing: Listed)
    requires chosen != [] && chosen != app.directory
    requires app.files != [] && FilesInDirectory(app)
    requires listing.Err?
    ensures var r := SelectDirectoryAsWritten(app, chosen, true, listing, Decline);
            && r.directory == chosen && r.files == app.files && !FilesInDirectory(r)
            && (app.page == 0 && |app.files| > 1 && chosen != DefaultDirectory ==> r.nextEnabled)
  {
    assert app.files[0] in app.files;
  }

  /** With the corrected load a failed listing clears the files, so Next is
      disabled on stage 1. */
  lemma FailedListingClearsFiles(app: App, chosen: string, listing: Listed)
    requires chosen != []
    requires listing.Err?
    ensures var r := SelectDirectory(app, chosen, true, listing, Decline);
            && r.directory == chosen && r.files == [] && FilesInDirectory(r)
            && (app.page == 0 ==> !r.nextEnabled)
  {
  }

  /** Every file held lies in the folder held. */
  ghost predicate FilesInDirectory(app: App) {
    forall f :: f in app.files ==> Parent(f) == app.directory
  }

  /** A listing whose paths all lie in `dir`. */
  ghost predicate InFolder(listing: Listed, dir: string) {
    listing.Ok? ==> forall f :: f in listing.value.paths ==> Parent(f) == dir
  }

  /** The same for the listings of the `split` folders a split answer
      reports. */
  ghost predicate AnswerInFolder(answer: SplitAnswer, dir: string) {
    answer.Split? ==>
      var split := JoinPath(dir, "split");
      InFolder(answer.splitListing, split) && AnswerInFolder(answer.next, split)
  }

  /** Entry names without '/'. */
  ghost predicate EntriesNamed(node: PathKind) {
    node.Directory? ==> forall e :: e in node.entries ==> NoChar(e.name, '/')
  }

  /** The paths of a successful listing are the folder joined with entry
      names, so each lies in the folder. */
  lemma ListingInDirectory(dir: string, node: PathKind)
    requires DirectoryForm(dir) && EntriesNamed(node)
    ensures InFolder(GetFilePathsAndExtension(dir, node, DefaultAllowed), dir)
  {
    var r := GetFilePathsAndExtension(dir, node, DefaultAllowed);
    if r.Ok? {
      var files := RegularFiles(node.entries);
      assert forall e :: e in files ==> NoChar(e.name, '/');
      JoinedInDirectory(dir, files, r.value.paths);
    }
  }

  /** Paths that are a permutation of names joined onto `dir` lie in `dir`. */
  lemma JoinedInDirectory(dir: string, files: seq<Entry>, paths: seq<string>)
    requires DirectoryForm(dir) && forall e :: e in files ==> NoChar(e.name, '/')
    requires multiset(paths) == multiset(FilePaths(dir, files))
    ensures forall f :: f in paths ==> Parent(f) == dir
  {
    var joined := FilePaths(dir, files);
    forall f | f in paths
      ensures Parent(f) == dir
    {
      assert f in multiset(joined);
      var i :| 0 <= i < |joined| && joined[i] == f;
      assert files[i] in files;
      ParentOfJoin(dir, files[i].name);
    }
  }

  /** The corrected load keeps every file inside the folder it shows, on
      every answer to the split prompt. */
  lemma {:induction false} LoadKeepsFilesInDirectory(app: App, listing: Listed, answer: SplitAnswer)
    requires InFolder(listing, app.directory) && AnswerInFolder(answer, app.directory)
    ensures FilesInDirectory(LoadOriginalNames(app, listing, answer))
    decreases answer
  {
    if listing.Ok? {
      var loaded := app.(files := listing.value.paths, extension := listing.value.extension);
      if |loaded.files| == 1 && Lower(loaded.extension) == ".pdf" && answer.Split? && answer.succeeded {
        var split := JoinPath(app.directory, "split");
        LoadKeepsFilesInDirectory(loaded.(directory := split), answer.splitListing, answer.next);
      }
    }
  }

  /** Choosing a folder with the corrected load leaves the files inside the
      chosen folder. */
  lemma SelectDirectoryKeepsFilesInDirectory(app: App, chosen: string, listing: Listed, answer: SplitAnswer)
    requires chosen != [] && InFolder(listing, chosen) && AnswerInFolder(answer, chosen)
    ensures FilesInDirectory(SelectDirectory(app, chosen, true, listing, answer))
  {
    LoadKeepsFilesInDirectory(UpdateButtons(app.(directory := chosen)), listing, answer);
  }

  /** As written, a failed split has already switched to the `split` folder
      when it returns, so the single PDF is held under a folder it does not
      lie in. */
  lemma FailedSplitLeavesFileOutside(app: App, listing: Listed, chunkSize: int, splitListing: Listed, next: SplitAnswer)
    requires SinglePdf(listing) && InFolder(listing, app.directory)
    ensures var r := LoadOriginalNamesAsWritten(app, listing, Split(chunkSize, false, splitListing, next));
            && r.directory == JoinPath(app.directory, "split") && r.files == listing.value.paths
            && !FilesInDirectory(r)
  {
    var f := listing.value.paths[0];
    assert f in listing.value.paths;
    assert |JoinPath(app.directory, "split")| > |app.directory|;
  }

  /** With the corrected load a failed split keeps the folder, so the PDF
      stays inside the folder shown and the buttons are current. */
  lemma FailedSplitKeepsFolder(app: App, listing: Listed, chunkSize: int, splitListing: Listed, next: SplitAnswer)
    requires SinglePdf(listing) && InFolder(listing, app.directory)
    ensures var r := LoadOriginalNames(app, listing, Split(chunkSize, false, splitListing, next));
            && r.directory == app.directory && r.files == listing.value.paths
            && FilesInDirectory(r) && ButtonsCurrent(r)
  {
  }

  // ---------------------------------------------------------------------
  // Stage 2: the spreadsheet and its columns
  // ---------------------------------------------------------------------

  /** `load_dataframe()`: on success the table and its columns replace the
      previous ones; on failure nothing changes. */
  function LoadDataframe(app: App, fileExists: bool, sheet: Option<Table>): (r: App)
    ensures LoadExcelDataframe(fileExists, sheet).Err? ==> r == app
    ensures LoadExcelDataframe(fileExists, sheet).Ok? ==>
              r == app.(table := sheet, available := sheet.value.columns)
  {
    match LoadExcelDataframe(fileExists, sheet)
    case Err(_) => app
    case Ok((t, cols)) => app.(table := Some(t), available := cols)
  }

  /** `select_excel_file()` for the file `chosen` ("" when cancelled): a
      lower-cased extension other than ".xls" or ".xlsx", or a file that
      cannot be read, is refused; otherwise the path is taken, the buttons
      updated and the sheet loaded. The chosen columns are kept. */
  function SelectExcelFile(app: App, chosen: string, readable: bool, fileExists: bool, sheet: Option<Table>): (r: App)
    ensures chosen == [] || Splitext(Lower(chosen)).1 !in ValidExtensions || !readable ==> r == app
    ensures chosen != [] && Splitext(Lower(chosen)).1 in ValidExtensions && readable ==>
              && r.excelPath == chosen && ButtonsCurrent(r)
              && (r.table == sheet || LoadExcelDataframe(fileExists, sheet).Err?)
    ensures r.selected == app.selected && r.files == app.files && r.page == app.page
    ensures LoadExcelDataframe(fileExists, sheet).Err? ==> r.table == app.table && r.available == app.available
    ensures chosen != [] && Splitext(Lower(chosen)).1 in ValidExtensions && readable && LoadExcelDataframe(fileExists, sheet).Ok? ==>
              r.table == sheet && r.available == sheet.value.columns
    ensures r.(excelPath := app.excelPath, table := app.table, available := app.available,
               prevEnabled := app.prevEnabled, nextEnabled := app.nextEnabled) == app
  {
    if chosen == [] || Splitext(Lower(chosen)).1 !in ValidExtensions || !readable then app
    else LoadDataframe(UpdateButtons(app.(excelPath := chosen)), fileExists, sheet)
  }

  /** `list(selector.selected_items)`: some enumeration of the picked set,
      each once. */
  ghost predicate Enumerates(order: seq<string>, picked: set<string>) {
    && (forall o :: o in order <==> o in picked)
    && (forall i, j :: 0 <= i < j < |order| ==> order[i] != order[j])
  }

  /** `show_item_selector()` then `_process_selection()` as written: the
      picker's selection is taken whether the picker was confirmed or
      cancelled (or simply closed). */
  function ClosePickerAsWritten(app: App, picker: PaginatedSelection.Selector, confirmed: bool, order: seq<string>): (r: App)
    requires Enumerates(order, picker.selected)
    ensures forall o :: o in r.selected <==> o in picker.selected
    ensures ButtonsCurrent(r)
    ensures r.(selected := app.selected, prevEnabled := app.prevEnabled, nextEnabled := app.nextEnabled) == app
  {
    UpdateButtons(app.(selected := order))
  }

  /** The same with a cancelled picker leaving the selection as it was. */
  function ClosePicker(app: App, picker: PaginatedSelection.Selector, confirmed: bool, order: seq<string>): (r: App)
    requires Enumerates(order, picker.selected)
    ensures confirmed ==> forall o :: o in r.selected <==> o in picker.selected
    ensures !confirmed ==> r.selected == app.selected
    ensures ButtonsCurrent(r)
    ensures r.(selected := app.selected, prevEnabled := app.prevEnabled, nextEnabled := app.nextEnabled) == app
  {
    if confirmed then UpdateButtons(app.(selected := order)) else UpdateButtons(app)
  }

  /** An app on stage 2 whose column "A" is chosen, with columns "A" and
      "B" on offer. */
  function ColumnsChosenApp(): App {
    App(1, "/d1", ["/d1/a.pdf", "/d1/b.pdf"], ".pdf", "/b.xlsx", None, ["A", "B"], ["A"], [], true, true)
  }

  /** Reopening the picker (which starts with nothing ticked), ticking "B"
      and cancelling replaces the chosen "A" by "B". */
  lemma CancelledPickerStillApplies()
    ensures var picker := PaginatedSelection.Click(PaginatedSelection.Open(ColumnsChosenApp().available), "B");
            && picker.selected == {"B"}
            && ClosePickerAsWritten(ColumnsChosenApp(), picker, false, ["B"]).selected == ["B"]
            && ClosePicker(ColumnsChosenApp(), picker, false, ["B"]).selected == ["A"]
  {
    var picker := PaginatedSelection.Click(PaginatedSelection.Open(ColumnsChosenApp().available), "B");
    assert picker.selected == {"B"};
  }

  // ---------------------------------------------------------------------
  // Stage 3: the output format
  // ---------------------------------------------------------------------

  /** `_process_drag_and_drop()`: the dialog's final name, or "" when it was
      closed without one; then the buttons are updated. */
  function ProcessDragAndDrop(app: App, dialog: DragAndDrop.Dialog): (r: App)
    ensures dialog.finalFilename.Some? ==> r.format == dialog.finalFilename.value
    ensures dialog.finalFilename.None? ==> r.format == []
    ensures ButtonsCurrent(r) && r.page == app.page && r.selected == app.selected && r.files == app.files
    ensures r.(format := app.format, prevEnabled := app.prevEnabled, nextEnabled := app.nextEnabled) == app
  {
    var name := if dialog.finalFilename.Some? then dialog.finalFilename.value else [];
    UpdateButtons(app.(format := name))
  }

  /** On stage 3 a confirmed dialog always enables Next, since the name it
      builds ends in the extension; a dialog closed without confirming
      disables it. */
  lemma ConfirmedFormatEnablesNext(app: App, dialog: DragAndDrop.Dialog, words: seq<string>, extension: string)
    requires app.page == 2 && dialog.extension != []
    ensures ProcessDragAndDrop(app, DragAndDrop.Accept(dialog, true)).nextEnabled
    ensures !ProcessDragAndDrop(app, DragAndDrop.Open(words, extension)).nextEnabled
  {
    var name := DragAndDrop.BuildFilename(dialog);
    assert |name| >= |dialog.extension| > 0;
  }

  /** A character of the class `[\w\-. ]`. */
  predicate FormatChar(c: char) {
    IsWordChar(c) || c == '-' || c == '.' || c == ' '
  }

  predicate AllFormatChars(s: string) {
    forall i :: 0 <= i < |s| ==> FormatChar(s[i])
  }

  /** How many leading characters are in the class: where the greedy `+`
      stops. */
  function Span(s: string): (k: nat)
    ensures k <= |s| && AllFormatChars(s[..k])
    ensures k < |s| ==> !FormatChar(s[k])
  {
    if s == [] || !FormatChar(s[0]) then 0
    else
      var k := 1 + Span(s[1..]);
      assert forall i :: 1 <= i < k ==> s[..k][i] == s[1..][..k - 1][i - 1];
      k
  }

  /** `re.match(r"^[\w\-. ]+$", s)`: one or more class characters, then
      the end of the text or a final newline (where `$` also matches). */
  function FormatMatches(s: string): (ok: bool)
    ensures ok <==> (s != [] && AllFormatChars(s))
                    || (|s| >= 2 && s[|s| - 1] == '\n' && AllFormatChars(s[..|s| - 1]))
  {
    var k := Span(s);
    k >= 1 && (k == |s| || (k == |s| - 1 && s[k] == '\n'))
  }

  /** The separators the format dialog accepts between columns include ','
      and ';', but a format holding either is refused at renaming time. */
  lemma SeparatorsRejectedAtRename(s: string, i: int)
    requires 0 <= i < |s| && (s[i] == ',' || s[i] == ';')
    ensures !FormatMatches(s)
    ensures DragAndDrop.ValidateInput([s[i]])
  {
  }

  // ---------------------------------------------------------------------
  // Stage 4: renaming
  // ---------------------------------------------------------------------

  /** How `start_renaming()` ends: an exception reached its handler, some
      chosen columns are missing from the sheet, the format has a character
      outside the class, no names came out, or the moves were planned. */
  datatype Outcome =
    | Crashed
    | MissingColumns(columns: seq<string>)
    | InvalidFormat
    | NoNames
    | Planned(moves: seq<Move>)

  /** The chosen columns the sheet lacks, in the chosen order. */
  function Missing(chosen: seq<string>, columns: seq<string>): (r: seq<string>)
    ensures forall c :: c in r <==> c in chosen && c !in columns
    ensures |r| <= |chosen|
  {
    if chosen == [] then []
    else
      var rest := Missing(chosen[1..], columns);
      assert forall c :: c in chosen <==> c == chosen[0] || c in chosen[1..];
      if chosen[0] !in columns then [chosen[0]] + rest else rest
  }

  /** `start_renaming()` up to the moves `rename_files` performs. Reading the
      columns of a sheet never loaded raises, except that with no chosen
      columns the check reads nothing and the format check runs first. */
  function StartRenaming(app: App): (r: Outcome)
    ensures r.MissingColumns? ==>
              && app.table.Some? && r.columns != []
              && forall c :: c in r.columns <==> c in app.selected && c !in app.table.value.columns
    ensures r.InvalidFormat? ==> !FormatMatches(app.format)
    ensures r.NoNames? ==>
              app.table.Some? && GenerateFormattedNames(app.table.value, app.selected, app.format) == Ok([])
    ensures r.Planned? ==>
              && app.table.Some? && FormatMatches(app.format)
              && (forall c :: c in app.selected ==> c in app.table.value.columns)
              && var names := GenerateFormattedNames(app.table.value, app.selected, app.format);
                 && names.Ok? && names.value != []
                 && RenameFiles(app.files, names.value) == Ok(r.moves)
  {
    if app.selected != [] && app.table.None? then Crashed
    else
      var missing := if app.table.None? then [] else Missing(app.selected, app.table.value.columns);
      if missing != [] then MissingColumns(missing)
      else if !FormatMatches(app.format) then InvalidFormat
      else if app.table.None? then Crashed
      else
        match GenerateFormattedNames(app.table.value, app.selected, app.format)
        case Err(_) => Crashed
        case Ok(names) =>
          if names == [] then NoNames
          else
            match RenameFiles(app.files, names)
            case Err(_) => Crashed
            case Ok(moves) => Planned(moves)
  }

  /** When the renaming is planned, file `i` (in natural order) is moved to
      its folder under the name row `i` gives, keeping its suffix; a blank
      first name is dropped first. */
  lemma PlannedMovesFollowRows(app: App)
    requires StartRenaming(app).Planned?
    ensures var moves := StartRenaming(app).moves;
            var names := DropLeadingBlank(GenerateFormattedNames(app.table.value, app.selected, app.format).value);
            && |moves| == |app.files| == |names|
            && forall i :: 0 <= i < |moves| ==>
                 && moves[i] == Move(app.files[i], JoinPath(Parent(app.files[i]), names[i] + Suffix(app.files[i])))
                 && (NoChar(names[i], '/') ==> Name(moves[i].target) == names[i] + Suffix(app.files[i]))
                 && (names[i] != [] && names[i][0] == '/' ==> moves[i].target == names[i] + Suffix(app.files[i]))
  {
    var moves := StartRenaming(app).moves;
    var names := DropLeadingBlank(GenerateFormattedNames(app.table.value, app.selected, app.format).value);
    forall i | 0 <= i < |moves|
      ensures NoChar(names[i], '/') ==> Name(moves[i].target) == names[i] + Suffix(app.files[i])
      ensures names[i] != [] && names[i][0] == '/' ==> moves[i].target == names[i] + Suffix(app.files[i])
    {
      assert moves[i].target == Destination(app.files[i], names[i]);
    }
  }

  /** Which way `start_renaming()` ends, case by case in the order of its
      checks: reading the columns of a sheet never loaded raises, then the
      missing columns are reported, then the format is checked, then an
      empty list of names stops it, and otherwise the moves are planned
      unless generating or planning raises. */
  lemma StartRenamingDecides(app: App)
    ensures app.selected != [] && app.table.None? ==> StartRenaming(app) == Crashed
    ensures app.table.Some? && Missing(app.selected, app.table.value.columns) != [] ==>
              StartRenaming(app) == MissingColumns(Missing(app.selected, app.table.value.columns))
    ensures app.selected == [] && app.table.None? ==>
              StartRenaming(app) == (if FormatMatches(app.format) then Crashed else InvalidFormat)
    ensures app.table.Some? && (forall c :: c in app.selected ==> c in app.table.value.columns) ==>
              var names := GenerateFormattedNames(app.table.value, app.selected, app.format);
              && (!FormatMatches(app.format) ==> StartRenaming(app) == InvalidFormat)
              && (FormatMatches(app.format) && names == Ok([]) ==> StartRenaming(app) == NoNames)
              && (FormatMatches(app.format) && names.Ok? && names.value != [] && RenameFiles(app.files, names.value).Ok? ==>
                    StartRenaming(app) == Planned(RenameFiles(app.files, names.value).value))
              && (FormatMatches(app.format) && (names.Err? || (names.value != [] && RenameFiles(app.files, names.value).Err?)) ==>
                    StartRenaming(app) == Crashed)
  {
    if app.table.Some? && (forall c :: c in app.selected ==> c in app.table.value.columns) {
      NoneMissing(app.selected, app.table.value.columns);
    }
  }

  lemma {:induction false} NoneMissing(chosen: seq<string>, columns: seq<string>)
    requires forall c :: c in chosen ==> c in columns
    ensures Missing(chosen, columns) == []
  {
    if chosen != [] {
      assert chosen[0] in chosen;
      assert forall c :: c in chosen[1..] ==> c in chosen;
      NoneMissing(chosen[1..], columns);
    }
  }

  /** With a sheet loaded and columns chosen, the renaming stops at the
      column check exactly when some chosen column is not a column of the
      sheet; the format is looked at only after that. */
  lemma MissingColumnsIffNotInSheet(app: App)
    requires app.table.Some? && app.selected != []
    ensures StartRenaming(app).MissingColumns? <==> exists c :: c in app.selected && c !in app.table.value.columns
  {
    var missing := Missing(app.selected, app.table.value.columns);
    if exists c :: c in app.selected && c !in app.table.value.columns {
      var c :| c in app.selected && c !in app.table.value.columns;
      assert c in missing;
    }
    if StartRenaming(app).MissingColumns? {
      var cols := StartRenaming(app).columns;
      assert cols[0] in cols;
    }
  }
}

=== FILE: drag_and_drop.dfy ===
/** The output-format dialog without its widgets: one draggable label per
    selected column, a separator entry between neighbouring labels, and the
    file extension at the end. The user reorders the labels by dropping them
    at a horizontal position and types separators; accepting builds the
    template `label_0 entry_0 label_1 entry_1 ... label_{N-1} extension`. */
module DragAndDrop {
  import opened Results
  import opened Replace
  import opened Arith

  /** The only characters a separator entry accepts. */
  const AllowedChars: string := "-_,; "

  /** Width in pixels of one grid column; a label and its entry take two. */
  const CellWidth: int := 120

  // ---------------------------------------------------------------------
  // Separator entries
  // ---------------------------------------------------------------------

  /** `validate_input(new_value)`. */
  function ValidateInput(v: string): (ok: bool)
    ensures ok <==> forall i :: 0 <= i < |v| ==> v[i] in AllowedChars
  {
    if v == [] then true
    else (v[0] in AllowedChars) && ValidateInput(v[1..])
  }

  /** Letters and digits are never accepted, whatever surrounds them. */
  lemma RejectsLettersAndDigits(v: string, i: int)
    requires 0 <= i < |v|
    requires ('a' <= v[i] <= 'z') || ('A' <= v[i] <= 'Z') || ('0' <= v[i] <= '9')
    ensures !ValidateInput(v)
  {
  }

  /** The entry's text after a keystroke proposes `proposed`: Tk keeps the
      old text when the validator refuses the new one. */
  function Keystroke(current: string, proposed: string): (r: string)
    ensures r == proposed || r == current
    ensures ValidateInput(proposed) ==> r == proposed
    ensures !ValidateInput(proposed) ==> r == current
    ensures ValidateInput(current) ==> ValidateInput(r)
  {
    if ValidateInput(proposed) then proposed else current
  }

  /** Whatever is typed, an entry that starts valid (empty, say) only ever holds allowed
      characters. */
  lemma {:induction false} EntryStaysValid(start: string, proposals: seq<string>)
    requires ValidateInput(start)
    ensures ValidateInput(Typed(start, proposals))
    decreases |proposals|
  {
    if proposals != [] {
      EntryStaysValid(Keystroke(start, proposals[0]), proposals[1..]);
    }
  }

  /** The entry's text after a run of keystrokes. */
  function Typed(start: string, proposals: seq<string>): string
    decreases |proposals|
  {
    if proposals == [] then start else Typed(Keystroke(start, proposals[0]), proposals[1..])
  }

  // ---------------------------------------------------------------------
  // Setting up
  // ---------------------------------------------------------------------

  /** `extension if extension.startswith(".") else "." + extension`. */
  function NormalizeExtension(e: string): (r: string)
    ensures |r| >= 1 && r[0] == '.'
    ensures e != [] && e[0] == '.' ==> r == e
    ensures !(e != [] && e[0] == '.') ==> r == "." + e
  {
    if e != [] && e[0] == '.' then e else "." + e
  }

  lemma NormalizeExtensionIdempotent(e: string)
    ensures NormalizeExtension(NormalizeExtension(e)) == NormalizeExtension(e)
  {
  }

  /** A draggable label: its text and the index it was created with. */
  datatype Label = Label(text: string, pairIndex: nat)

  /** The dialog: labels in their current order, the separator entries
      (positional, they never move), the normalised extension, and the
      template once accepted. */
  datatype Dialog = Dialog(labels: seq<Label>, entries: seq<string>, extension: string, finalFilename: Option<string>)

  /** `DragAndDropFixedInputs(parent, words, extension)`: label `i` shows
      word `i`; every word but the last gets an empty entry after it. */
  function Open(words: seq<string>, extension: string): (d: Dialog)
    ensures |d.labels| == |words|
    ensures forall i :: 0 <= i < |words| ==> d.labels[i] == Label(words[i], i)
    ensures |d.entries| == if |words| == 0 then 0 else |words| - 1
    ensures forall i :: 0 <= i < |d.entries| ==> d.entries[i] == []
    ensures d.extension == NormalizeExtension(extension) && d.finalFilename.None?
  {
    var n := |words|;
    Dialog(
      seq(n, i requires 0 <= i < n => Label(words[i], i)),
      seq(if n == 0 then 0 else n - 1, _ => []),
      NormalizeExtension(extension),
      None)
  }

  /** Grid columns: label `i` at column `2i`, its entry at `2i + 1`, the
      extension at the last of the `2N` columns. */
  function LabelColumn(i: nat): nat { 2 * i }
  function EntryColumn(i: nat): nat { 2 * i + 1 }
  function ExtensionColumn(n: nat): int { 2 * n - 1 }

  /** No two widgets of a dialog with `n >= 1` labels share a column, and all
      of them fit in the `2n` columns configured. */
  lemma ColumnsDistinct(n: nat, i: nat, j: nat)
    requires n >= 1 && i < n && j < n - 1
    ensures LabelColumn(i) != EntryColumn(j)
    ensures LabelColumn(i) != ExtensionColumn(n) && EntryColumn(j) != ExtensionColumn(n)
    ensures LabelColumn(i) < 2 * n && EntryColumn(j) < 2 * n && 0 <= ExtensionColumn(n) < 2 * n
  {
  }

  // ---------------------------------------------------------------------
  // Dropping a label
  // ---------------------------------------------------------------------

  /** Python's `round(n / d)`: the nearest integer, ties to the even one. */
  function RoundHalfEven(n: int, d: int): (r: int)
    requires d > 0
    ensures 2 * Dist(n, r * d) <= d
    ensures 2 * Dist(n, r * d) == d ==> r % 2 == 0
  {
    var q := n / d;
    var rem := n % d;
    assert n == q * d + rem;
    assert (q + 1) * d == q * d + d;
    if 2 * rem < d then q
    else if 2 * rem > d then q + 1
    else if q % 2 == 0 then q
    else q + 1
  }

  function Dist(a: int, b: int): nat {
    if a >= b then a - b else b - a
  }

  /** Nearest with ties to even picks one integer only. */
  lemma RoundHalfEvenUnique(n: int, d: int, r: int)
    requires d > 0
    requires 2 * Dist(n, r * d) <= d
    requires 2 * Dist(n, r * d) == d ==> r % 2 == 0
    ensures r == RoundHalfEven(n, d)
  {
    var s := RoundHalfEven(n, d);
    var a, b := n - r * d, n - s * d;
    assert -d <= 2 * a <= d && -d <= 2 * b <= d;
    if s > r {
      MulAtLeast(s - r, d);
      Distrib(s, r, d);
      assert false;
    } else if s < r {
      MulAtLeast(r - s, d);
      Distrib(r, s, d);
      assert false;
    }
  }

  lemma Distrib(x: int, y: int, d: int)
    ensures x * d - y * d == (x - y) * d
  {
  }

  lemma MulAtLeast(k: int, d: int)
    requires k >= 1 && d > 0
    ensures k * d >= d
    ensures k * d == d ==> k == 1
  {
    assert k * d == d + (k - 1) * d;
  }

  /** The slot a label dropped at `dropX` goes to among `n` labels:
      `max(0, min(round(drop_x / (2 * CELL_WIDTH)), n - 1))`. */
  function TargetSlot(dropX: int, n: nat): (slot: int)
    ensures n >= 1 ==> 0 <= slot < n
  {
    var t := RoundHalfEven(dropX, 2 * CellWidth);
    Max(0, Min(t, n - 1))
  }

  /** The slot is the one whose left edge is nearest the drop position. */
  lemma TargetSlotNearest(dropX: int, n: nat, j: int)
    requires n >= 1 && 0 <= j < n
    ensures Dist(dropX, TargetSlot(dropX, n) * 2 * CellWidth) <= Dist(dropX, j * 2 * CellWidth)
  {
    var t := RoundHalfEven(dropX, 2 * CellWidth);
    var slot := TargetSlot(dropX, n);
    assert 2 * Dist(dropX, t * 240) <= 240;
    if t < 0 {
      assert slot == 0;
      assert dropX <= t * 240 + 120;
      assert t * 240 <= -240;
    } else if t > n - 1 {
      assert slot == n - 1;
      assert dropX >= t * 240 - 120;
      assert t * 240 >= (n - 1) * 240 + 240;
      assert j * 240 <= (n - 1) * 240;
    } else {
      assert slot == t;
      if j < t {
        assert j * 240 <= t * 240 - 240;
      } else if j > t {
        assert j * 240 >= t * 240 + 240;
      }
    }
  }

  /** `s` without its element at `i`: what `list.remove` leaves when the
      element is found at `i`. */
  function RemoveAt<T>(s: seq<T>, i: int): (r: seq<T>)
    requires 0 <= i < |s|
    ensures |r| == |s| - 1
    ensures forall k :: 0 <= k < i ==> r[k] == s[k]
    ensures forall k :: i <= k < |r| ==> r[k] == s[k + 1]
  {
    s[..i] + s[i + 1..]
  }

  /** `list.insert(i, x)` for `0 <= i <= len`. */
  function InsertAt<T>(s: seq<T>, i: int, x: T): (r: seq<T>)
    requires 0 <= i <= |s|
    ensures |r| == |s| + 1 && r[i] == x
    ensures forall k :: 0 <= k < i ==> r[k] == s[k]
    ensures forall k :: i < k < |r| ==> r[k] == s[k - 1]
  {
    s[..i] + [x] + s[i..]
  }

  /** Removing what was just inserted gives the list back. */
  lemma RemoveInserted<T>(s: seq<T>, i: int, x: T)
    requires 0 <= i <= |s|
    ensures RemoveAt(InsertAt(s, i, x), i) == s
  {
    var r := RemoveAt(InsertAt(s, i, x), i);
    assert forall k :: 0 <= k < |s| ==> r[k] == s[k];
  }

  /** `reorder_label(label, drop_x)` for the label at position `from`: it is
      taken out and put back at the target slot. */
  function Reorder(labels: seq<Label>, from: int, dropX: int): (r: seq<Label>)
    requires 0 <= from < |labels|
    ensures |r| == |labels|
    ensures r[TargetSlot(dropX, |labels|)] == labels[from]
    ensures RemoveAt(r, TargetSlot(dropX, |labels|)) == RemoveAt(labels, from)
    ensures multiset(r) == multiset(labels)
  {
    var slot := TargetSlot(dropX, |labels|);
    var rest := RemoveAt(labels, from);
    var r := InsertAt(rest, slot, labels[from]);
    assert r[..slot] == rest[..slot] && r[slot + 1..] == rest[slot..];
    assert rest[..slot] + rest[slot..] == rest;
    assert labels[..from] + [labels[from]] + labels[from + 1..] == labels;
    assert r == rest[..slot] + [labels[from]] + rest[slot..];
    calc {
      multiset(r);
      multiset(rest[..slot]) + multiset([labels[from]]) + multiset(rest[slot..]);
      { assert multiset(rest) == multiset(rest[..slot] + rest[slot..]); }
      multiset(rest) + multiset([labels[from]]);
      multiset(labels[..from]) + multiset(labels[from + 1..]) + multiset([labels[from]]);
      { assert multiset(labels) == multiset(labels[..from] + [labels[from]] + labels[from + 1..]); }
      multiset(labels);
    }
    r
  }

  /** Dropping a label on its own slot leaves the order as it was. */
  lemma ReorderInPlace(labels: seq<Label>, from: int, dropX: int)
    requires 0 <= from < |labels| && TargetSlot(dropX, |labels|) == from
    ensures Reorder(labels, from, dropX) == labels
  {
    var rest := RemoveAt(labels, from);
    assert rest[..from] == labels[..from] && rest[from..] == labels[from + 1..];
    assert labels[..from] + [labels[from]] + labels[from + 1..] == labels;
  }

  /** Any drop at or beyond the last label's column is a drop on the last
      slot, and any drop at or left of the first column a drop on slot 0. */
  lemma DropBeyondEnds(labels: seq<Label>, from: int, dropX: int)
    requires 0 <= from < |labels|
    ensures dropX >= (|labels| - 1) * 2 * CellWidth ==>
              Reorder(labels, from, dropX) == Reorder(labels, from, (|labels| - 1) * 2 * CellWidth)
    ensures dropX <= 0 ==> Reorder(labels, from, dropX) == Reorder(labels, from, 0)
  {
    var n := |labels|;
    SlotAtRight((n - 1) * 2 * CellWidth, n);
    SlotAtLeft(0, n);
    if dropX >= (n - 1) * 2 * CellWidth {
      SlotAtRight(dropX, n);
    }
    if dropX <= 0 {
      SlotAtLeft(dropX, n);
    }
  }

  /** A drop at or right of the last label's column goes to the last slot. */
  lemma SlotAtRight(dropX: int, n: nat)
    requires n >= 1 && dropX >= (n - 1) * 2 * CellWidth
    ensures TargetSlot(dropX, n) == n - 1
  {
    var t := RoundHalfEven(dropX, 240);
    assert 2 * Dist(dropX, t * 240) <= 240;
    assert t * 240 >= dropX - 120;
    assert t * 240 > (n - 2) * 240;
  }

  /** A drop at or left of the first column goes to slot 0. */
  lemma SlotAtLeft(dropX: int, n: nat)
    requires n >= 1 && dropX <= 0
    ensures TargetSlot(dropX, n) == 0
  {
    var t := RoundHalfEven(dropX, 240);
    assert 2 * Dist(dropX, t * 240) <= 240;
    assert t * 240 <= 120;
  }

  /** Dropping the label at position `from` of the dialog. */
  function DropLabel(d: Dialog, from: int, dropX: int): (r: Dialog)
    requires 0 <= from < |d.labels|
    ensures r.entries == d.entries && r.extension == d.extension && r.finalFilename == d.finalFilename
    ensures multiset(r.labels) == multiset(d.labels)
  {
    d.(labels := Reorder(d.labels, from, dropX))
  }

  // ---------------------------------------------------------------------
  // Building the template
  // ---------------------------------------------------------------------

  function Texts(labels: seq<Label>): (r: seq<string>)
    ensures |r| == |labels| && forall i :: 0 <= i < |labels| ==> r[i] == labels[i].text
  {
    if labels == [] then [] else [labels[0].text] + Texts(labels[1..])
  }

  /** The entry at position `i`, or nothing past the entries. */
  function EntryAt(entries: seq<string>, i: nat): string {
    if i < |entries| then entries[i] else []
  }

  /** Position `i` of the template: the label now at `i`, then the entry at
      `i`. */
  function Pieces(labels: seq<Label>, entries: seq<string>): (p: seq<string>)
    ensures |p| == |labels|
  {
    seq(|labels|, i requires 0 <= i < |labels| => labels[i].text + EntryAt(entries, i))
  }

  /** Label `k` onwards, each followed by the entry at its position (or
      nothing past the entries): the pieces from `k` on, concatenated. */
  function Interleave(labels: seq<Label>, entries: seq<string>, k: nat): (r: string)
    requires k <= |labels|
    ensures r == Join(Pieces(labels, entries)[k..], [])
    decreases |labels| - k
  {
    if k == |labels| then []
    else
      PiecesStep(labels, entries, k);
      labels[k].text + EntryAt(entries, k) + Interleave(labels, entries, k + 1)
  }

  lemma PiecesStep(labels: seq<Label>, entries: seq<string>, k: nat)
    requires k < |labels|
    ensures Join(Pieces(labels, entries)[k..], []) ==
            labels[k].text + EntryAt(entries, k) + Join(Pieces(labels, entries)[k + 1..], [])
  {
    var p := Pieces(labels, entries)[k..];
    assert Pieces(labels, entries)[k + 1..] == p[1..];
    if k + 1 < |labels| {
      JoinCons(p[0], p[1..], []);
      assert [p[0]] + p[1..] == p;
    } else {
      assert p == [p[0]];
    }
  }

  /** `build_filename()`: position by position, the text of the label now
      there followed by the entry at that position, then the extension. */
  function BuildFilename(d: Dialog): (name: string)
    ensures name == Join(Pieces(d.labels, d.entries), []) + d.extension
    ensures |name| >= |d.extension| && name[|name| - |d.extension|..] == d.extension
  {
    assert Pieces(d.labels, d.entries)[0..] == Pieces(d.labels, d.entries);
    Interleave(d.labels, d.entries, 0) + d.extension
  }

  /** With every entry holding the same separator, the template is the label
      texts joined by that separator, then the extension. */
  lemma {:induction false} UniformSeparator(labels: seq<Label>, entries: seq<string>, sep: string, k: nat)
    requires k < |labels|
    requires |entries| == |labels| - 1
    requires forall i :: 0 <= i < |entries| ==> entries[i] == sep
    ensures Interleave(labels, entries, k) == Join(Texts(labels[k..]), sep)
    decreases |labels| - k
  {
    var texts := Texts(labels[k..]);
    if k == |labels| - 1 {
      assert texts == [labels[k].text];
    } else {
      UniformSeparator(labels, entries, sep, k + 1);
      assert Texts(labels[k + 1..]) == texts[1..];
      JoinCons(texts[0], texts[1..], sep);
      assert [texts[0]] + texts[1..] == texts;
    }
  }

  lemma BuildWithUniformSeparator(d: Dialog, sep: string)
    requires |d.labels| >= 1 && |d.entries| == |d.labels| - 1
    requires forall i :: 0 <= i < |d.entries| ==> d.entries[i] == sep
    ensures BuildFilename(d) == Join(Texts(d.labels), sep) + d.extension
  {
    UniformSeparator(d.labels, d.entries, sep, 0);
    assert d.labels[0..] == d.labels;
  }

  /** Entries are positional: after a drop the separators sit between the
      same positions, so only the order of the label texts changes. */
  lemma DropKeepsSeparators(d: Dialog, from: int, dropX: int, sep: string)
    requires 0 <= from < |d.labels| && |d.entries| == |d.labels| - 1
    requires forall i :: 0 <= i < |d.entries| ==> d.entries[i] == sep
    ensures BuildFilename(DropLabel(d, from, dropX)) == Join(Texts(Reorder(d.labels, from, dropX)), sep) + d.extension
  {
    BuildWithUniformSeparator(DropLabel(d, from, dropX), sep);
  }

  /** Entries are positional, whatever they hold: after a drop the dragged
      label's text sits at the target slot followed by the entry that was
      already at that slot, and every position keeps its own entry. */
  lemma DropKeepsEntries(d: Dialog, from: int, dropX: int)
    requires 0 <= from < |d.labels|
    ensures var slot := TargetSlot(dropX, |d.labels|);
            var p := Pieces(Reorder(d.labels, from, dropX), d.entries);
            && BuildFilename(DropLabel(d, from, dropX)) == Join(p, []) + d.extension
            && p[slot] == d.labels[from].text + EntryAt(d.entries, slot)
            && forall i :: 0 <= i < |p| ==> p[i] == Reorder(d.labels, from, dropX)[i].text + EntryAt(d.entries, i)
  {
  }

  /** `on_accept()`: the template is kept only when the user confirms. */
  function Accept(d: Dialog, confirmed: bool): (r: Dialog)
    ensures confirmed ==> r.finalFilename == Some(BuildFilename(d))
    ensures !confirmed ==> r == d
    ensures r.labels == d.labels && r.entries == d.entries && r.extension == d.extension
  {
    if confirmed then d.(finalFilename := Some(BuildFilename(d))) else d
  }
}

=== FILE: excel_parser.dfy ===
/** The spreadsheet side of the renamer: loading a sheet (`load_excel_dataframe`)
    and turning each of its rows into a file name by substituting the row's
    cell values for the column names found in a template
    (`generate_formatted_names`). */
module ExcelParser {
  import opened Results
  import opened Text
  import opened Replace
  import opened Paths

  /** A cell value as the spreadsheet reader hands it over. A float that
      holds a whole number is kept apart from one that does not, because the
      renamer writes the first as an integer; the text of a fractional float,
      and of any other value (dates, booleans, NaN), is taken as given. */
  datatype Cell =
    | IntCell(i: int)
    | WholeFloat(whole: int)
    | FractionalFloat(repr: string)
    | TextCell(s: string)
    | OtherCell(repr: string)

  /** One row: column name to cell. */
  type Row = map<string, Cell>

  datatype Table = Table(columns: seq<string>, rows: seq<Row>)

  datatype LoadError = FileNotFound | Unreadable

  /** `load_excel_dataframe(path)`: a missing file is `FileNotFoundError`;
      otherwise the sheet as read, with its column names. `sheet` is what the
      reader makes of the file (`None` when it raises). */
  function LoadExcelDataframe(fileExists: bool, sheet: Option<Table>): (r: Result<(Table, seq<string>), LoadError>)
    ensures r == Err(FileNotFound) <==> !fileExists
    ensures r == Err(Unreadable) <==> fileExists && sheet.None?
    ensures r.Ok? ==> sheet == Some(r.value.0) && r.value.1 == r.value.0.columns
  {
    if !fileExists then Err(FileNotFound)
    else if sheet.None? then Err(Unreadable)
    else Ok((sheet.value, sheet.value.columns))
  }

  /** `str(value)` before stripping, with a whole float first made an int:
      an integer cell, and a whole float, print as text that reads back as
      their integer. */
  function CellRepr(c: Cell): (r: string)
    ensures c.IntCell? ==> ParseInt(r) == Some(c.i)
    ensures c.WholeFloat? ==> ParseInt(r) == Some(c.whole)
  {
    match c
    case IntCell(i) => IntTextRoundTrip(i); IntText(i)
    case WholeFloat(w) => IntTextRoundTrip(w); IntText(w)
    case FractionalFloat(t) => t
    case TextCell(s) => s
    case OtherCell(t) => t
  }

  /** `str(value).strip()`: the text substituted for a column name. */
  function CellText(c: Cell): (r: string)
    ensures r == [] || (!IsSpace(r[0]) && !IsSpace(r[|r| - 1]))
    ensures exists i :: StrippedAt(CellRepr(c), i, r)
  {
    Strip(CellRepr(c))
  }

  /** A whole float is written exactly as the integer it holds, and that text
      reads back as the integer: `2020.0` becomes "2020", never "2020.0". */
  lemma WholeFloatAsInteger(w: int)
    ensures CellText(WholeFloat(w)) == CellText(IntCell(w)) == IntText(w)
    ensures ParseInt(CellText(WholeFloat(w))) == Some(w)
  {
    var t := IntText(w);
    assert !IsSpace(t[0]) && !IsSpace(t[|t| - 1]) by {
      if w < 0 {
        assert t[0] == '-';
        assert t[|t| - 1] == NatText(-w)[|NatText(-w)| - 1];
      }
    }
    assert StrippedAt(t, 0, t);
    StripUnique(t, 0, t);
    IntTextRoundTrip(w);
  }

  /** `t.replace(c, value_str)` for the cell of column `c`. */
  function Fill(t: string, row: Row, c: string): (r: string)
    requires c in row
    ensures c != [] ==> r == Join(Split(t, c), CellText(row[c]))
  {
    var v := CellText(row[c]);
    if c == [] then ReplaceAll(t, c, v)
    else ReplaceAllIsJoinOfSplit(t, c, v); ReplaceAll(t, c, v)
  }

  /** The replacements for one row, one column after the other, each on the
      result of the previous; a column the row lacks is a `KeyError`. */
  function Substitute(t: string, row: Row, cols: seq<string>): (r: Result<string, string>)
    ensures r.Ok? <==> forall c :: c in cols ==> c in row
    ensures r.Err? ==> r.error in cols && r.error !in row
    ensures r.Err? ==> exists k :: 0 <= k < |cols| && cols[k] == r.error && forall j :: 0 <= j < k ==> cols[j] in row
    decreases |cols|
  {
    if cols == [] then Ok(t)
    else if cols[0] !in row then Err(cols[0])
    else
      var rest := cols[1..];
      var r := Substitute(Fill(t, row, cols[0]), row, rest);
      SubstituteStep(cols, row, r);
      r
  }

  /** The contract of `Substitute` on `cols` from the one on its tail, when
      the first column is in the row. */
  lemma SubstituteStep(cols: seq<string>, row: Row, r: Result<string, string>)
    requires cols != [] && cols[0] in row
    requires r.Ok? <==> forall c :: c in cols[1..] ==> c in row
    requires r.Err? ==> r.error !in row
    requires r.Err? ==> exists k :: 0 <= k < |cols[1..]| && cols[1..][k] == r.error && forall j :: 0 <= j < k ==> cols[1..][j] in row
    ensures r.Ok? <==> forall c :: c in cols ==> c in row
    ensures r.Err? ==> r.error in cols && r.error !in row
    ensures r.Err? ==> exists k :: 0 <= k < |cols| && cols[k] == r.error && forall j :: 0 <= j < k ==> cols[j] in row
  {
    var rest := cols[1..];
    assert cols == [cols[0]] + rest;
    if r.Err? {
      var k :| 0 <= k < |rest| && rest[k] == r.error && forall j :: 0 <= j < k ==> rest[j] in row;
      assert cols[k + 1] == r.error;
      assert forall j :: 0 <= j < k + 1 ==> cols[j] in row by {
        forall j | 0 <= j < k + 1 ensures cols[j] in row {
          if j > 0 { assert cols[j] == rest[j - 1]; }
        }
      }
    }
  }

  /** Substituting a list of columns is substituting its first part and then
      the rest on the outcome. */
  lemma {:induction false} SubstituteAppend(t: string, row: Row, a: seq<string>, b: seq<string>)
    requires forall c :: c in a ==> c in row
    ensures Substitute(t, row, a + b) == Substitute(Substitute(t, row, a).value, row, b)
    decreases |a|
  {
    if a != [] {
      assert (a + b)[0] == a[0];
      assert (a + b)[1..] == a[1..] + b;
      SubstituteAppend(Fill(t, row, a[0]), row, a[1..], b);
    } else {
      assert a + b == b;
    }
  }

  /** A template in which no (non-empty) column name occurs comes out
      unchanged. */
  lemma {:induction false} SubstituteUntouched(t: string, row: Row, cols: seq<string>)
    requires forall c :: c in cols ==> c in row && c != [] && !Contains(t, c)
    ensures Substitute(t, row, cols) == Ok(t)
    decreases |cols|
  {
    if cols != [] {
      assert forall c :: c in cols[1..] ==> c in cols;
      SubstituteUntouched(t, row, cols[1..]);
    }
  }

  /** With one column, the name is the template cut at the column name's
      leftmost occurrences and glued back with the cell's text. */
  lemma SubstituteOneColumn(t: string, row: Row, c: string)
    requires c in row && c != []
    ensures Substitute(t, row, [c]) == Ok(Join(Split(t, c), CellText(row[c])))
  {
    ReplaceAllIsJoinOfSplit(t, c, CellText(row[c]));
    assert [c][1..] == [];
  }

  /** `generate_formatted_names(df, columns, format)`: the template is the
      format without its extension; each row gives one name, in row order;
      the first missing column (in the first row that lacks one) is a
      `KeyError`. */
  function GenerateFormattedNames(table: Table, cols: seq<string>, format: string): (r: Result<seq<string>, string>)
    ensures var base := Splitext(format).0;
            && (r.Ok? <==> forall i :: 0 <= i < |table.rows| ==> Substitute(base, table.rows[i], cols).Ok?)
            && (r.Ok? ==>
                  && |r.value| == |table.rows|
                  && forall i :: 0 <= i < |table.rows| ==> r.value[i] == Substitute(base, table.rows[i], cols).value)
            && (r.Err? ==> exists i :: 0 <= i < |table.rows| && Substitute(base, table.rows[i], cols) == Err(r.error))
  {
    NamesFor(Splitext(format).0, table.rows, cols)
  }

  /** The template filled in for every row, in order. */
  function NamesFor(base: string, rows: seq<Row>, cols: seq<string>): (r: Result<seq<string>, string>)
    ensures r.Ok? <==> forall i :: 0 <= i < |rows| ==> Substitute(base, rows[i], cols).Ok?
    ensures r.Ok? ==> |r.value| == |rows| && forall i :: 0 <= i < |rows| ==> r.value[i] == Substitute(base, rows[i], cols).value
    ensures r.Err? ==> exists i :: 0 <= i < |rows| && Substitute(base, rows[i], cols) == Err(r.error)
  {
    var each := seq(|rows|, i requires 0 <= i < |rows| => Substitute(base, rows[i], cols));
    assert forall i :: 0 <= i < |rows| ==> each[i] == Substitute(base, rows[i], cols);
    var r := Collect(each);
    r
  }

  /** The values of a run of results, or the error of the first that
      failed: the loop stops at the first exception. */
  function Collect<T, E(==)>(rs: seq<Result<T, E>>): (r: Result<seq<T>, E>)
    ensures r.Ok? <==> forall i :: 0 <= i < |rs| ==> rs[i].Ok?
    ensures r.Ok? ==> |r.value| == |rs| && forall i :: 0 <= i < |rs| ==> r.value[i] == rs[i].value
    ensures r.Err? ==> exists i :: 0 <= i < |rs| && rs[i].Err? && rs[i].error == r.error && forall j :: 0 <= j < i ==> rs[j].Ok?
    decreases |rs|
  {
    if rs == [] then Ok([])
    else if rs[0].Err? then Err(rs[0].error)
    else
      var tail := rs[1..];
      assert rs == [rs[0]] + tail;
      var rest := Collect(tail);
      assert forall i :: 0 <= i < |tail| ==> tail[i] == rs[i + 1];
      if rest.Err? then Err(rest.error)
      else Ok([rs[0].value] + rest.value)
  }

  /** Every row of a well-formed sheet has every column. */
  ghost predicate WellFormed(table: Table) {
    forall i :: 0 <= i < |table.rows| ==> table.rows[i].Keys == set c | c in table.columns
  }

  /** On a well-formed sheet the names come out exactly when every requested
      column is a column of the sheet (or there are no rows). */
  lemma GenerateSucceedsIffColumnsExist(table: Table, cols: seq<string>, format: string)
    requires WellFormed(table) && table.rows != []
    ensures GenerateFormattedNames(table, cols, format).Ok? <==> forall c :: c in cols ==> c in table.columns
  {
    var base := Splitext(format).0;
    assert table.rows[0].Keys == set c | c in table.columns;
    if forall c :: c in cols ==> c in table.columns {
      forall i | 0 <= i < |table.rows|
        ensures Substitute(base, table.rows[i], cols).Ok?
      {
        assert table.rows[i].Keys == set c | c in table.columns;
      }
    } else {
      var c :| c in cols && c !in table.columns;
      assert c !in table.rows[0];
      assert !Substitute(base, table.rows[0], cols).Ok?;
    }
  }

  /** The extension of the format never reaches the names: a format that is
      a stem plus an extension gives the names the stem alone gives as a
      template. */
  lemma ExtensionDiscarded(table: Table, cols: seq<string>, stem: string, ext: string)
    requires HasNonDot(Name(stem))
    requires |ext| >= 1 && ext[0] == '.' && NoChar(ext[1..], '.') && NoChar(ext, '/')
    ensures GenerateFormattedNames(table, cols, stem + ext) == NamesFor(stem, table.rows, cols)
  {
    SplitextOfAppended(stem, ext);
  }
}

=== FILE: file_manager.dfy ===
/** The file set the renamer works on (`get_file_paths_and_extension`) and
    the rename pass over it (`rename_files`). The directory is given as what
    the file system reports about a path; a rename pass is first a plan of
    moves, then the plan applied to a map from paths to file contents. */
module FileManager {
  import opened Results
  import opened Text
  import opened Paths
  import opened NaturalSort

  /** One entry of a directory listing: its name (no '/') and whether it is
      a regular file. */
  datatype Entry = Entry(name: string, isFile: bool)

  /** What exists at a path. */
  datatype PathKind = Absent | NonDirectory | Directory(entries: seq<Entry>)

  datatype ListingError =
    | DirectoryNotFound
    | NotADirectory
    | NoFiles
    | MixedExtensions
    | ExtensionNotAllowed(extension: string)

  /** The files to rename, in natural order, and their common extension. */
  datatype Listing = Listing(paths: seq<string>, extension: string)

  /** The default allow-list of `get_file_paths_and_extension`. */
  const DefaultAllowed: seq<string> := [".pdf"]

  function RegularFiles(entries: seq<Entry>): (files: seq<Entry>)
    ensures forall e :: e in files <==> e in entries && e.isFile
    ensures |files| <= |entries|
  {
    if entries == [] then []
    else if entries[0].isFile then [entries[0]] + RegularFiles(entries[1..])
    else RegularFiles(entries[1..])
  }

  /** `file.suffix.lower()` of an entry. */
  function LowerSuffix(e: Entry): string {
    Lower(Suffix(e.name))
  }

  function LowerAll(xs: seq<string>): (r: seq<string>)
    ensures |r| == |xs| && forall i :: 0 <= i < |xs| ==> r[i] == Lower(xs[i])
  {
    if xs == [] then [] else [Lower(xs[0])] + LowerAll(xs[1..])
  }

  function FilePaths(dir: string, files: seq<Entry>): (r: seq<string>)
    ensures |r| == |files| && forall i :: 0 <= i < |files| ==> r[i] == JoinPath(dir, files[i].name)
  {
    seq(|files|, i requires 0 <= i < |files| => JoinPath(dir, files[i].name))
  }

  /** Every regular file of `entries` has lower-cased suffix `ext`. */
  ghost predicate AllHaveExtension(entries: seq<Entry>, ext: string) {
    forall e :: e in entries && e.isFile ==> LowerSuffix(e) == ext
  }

  ghost predicate HasRegularFile(entries: seq<Entry>) {
    exists e :: e in entries && e.isFile
  }

  /** Two regular files whose suffixes differ once lower-cased. */
  ghost predicate MixedSuffixes(entries: seq<Entry>) {
    exists e, f :: e in entries && f in entries && e.isFile && f.isFile && LowerSuffix(e) != LowerSuffix(f)
  }

  /** `{f(x) for x in xs}`. */
  function Image<T(==), U>(xs: seq<T>, f: T -> U): set<U> {
    set x | x in xs :: f(x)
  }

  /** The image has one element exactly when every element maps where the
      first does. */
  lemma SingleImage<T, U>(xs: seq<T>, f: T -> U)
    requires xs != []
    ensures |Image(xs, f)| == 1 <==> forall x :: x in xs ==> f(x) == f(xs[0])
  {
    var img := Image(xs, f);
    var y0 := f(xs[0]);
    assert y0 in img;
    if forall x :: x in xs ==> f(x) == y0 {
      assert img == {y0};
    } else {
      var x :| x in xs && f(x) != y0;
      var pair := {y0, f(x)};
      assert pair <= img;
      assert |pair| == 2;
      SubsetCard(pair, img);
    }
  }

  lemma SubsetCard<T>(a: set<T>, b: set<T>)
    requires a <= b
    ensures |a| <= |b|
  {
    assert b == a + (b - a);
  }

  /** The directory-level predicates read through `RegularFiles`. */
  lemma RegularFilesFacts(entries: seq<Entry>)
    ensures RegularFiles(entries) == [] <==> !HasRegularFile(entries)
    ensures var files := RegularFiles(entries);
            files != [] ==>
              ((forall f :: f in files ==> LowerSuffix(f) == LowerSuffix(files[0]))
               <==> AllHaveExtension(entries, LowerSuffix(files[0])))
    ensures var files := RegularFiles(entries);
            files != [] ==>
              ((forall f :: f in files ==> LowerSuffix(f) == LowerSuffix(files[0]))
               <==> !MixedSuffixes(entries))
  {
    var files := RegularFiles(entries);
    if files != [] {
      assert files[0] in files;
    }
  }

  /** `get_file_paths_and_extension(directory_path, allowed_extensions)`:
      the checks run in order (missing path, not a directory, no regular
      file, more than one lower-cased suffix, suffix not allowed) and the
      first that fails is the error. */
  function GetFilePathsAndExtension(dir: string, node: PathKind, allowed: seq<string>): (r: Result<Listing, ListingError>)
    ensures r == Err(DirectoryNotFound) <==> node.Absent?
    ensures r == Err(NotADirectory) <==> node.NonDirectory?
    ensures r == Err(NoFiles) <==> node.Directory? && !HasRegularFile(node.entries)
    ensures r == Err(MixedExtensions) <==> node.Directory? && MixedSuffixes(node.entries)
    ensures (r.Err? && r.error.ExtensionNotAllowed?) <==>
              && node.Directory? && HasRegularFile(node.entries)
              && exists e :: AllHaveExtension(node.entries, e) && e !in LowerAll(allowed)
    ensures r.Err? && r.error.ExtensionNotAllowed? ==> AllHaveExtension(node.entries, r.error.extension)
    ensures r.Ok? ==>
              && node.Directory?
              && AllHaveExtension(node.entries, r.value.extension)
              && r.value.extension in LowerAll(allowed)
              && multiset(r.value.paths) == multiset(FilePaths(dir, RegularFiles(node.entries)))
              && Sorted(r.value.paths)
  {
    match node
    case Absent => Err(DirectoryNotFound)
    case NonDirectory => Err(NotADirectory)
    case Directory(entries) =>
      var files := RegularFiles(entries);
      RegularFilesFacts(entries);
      if files == [] then
        Err(NoFiles)
      else
        SingleImage(files, LowerSuffix);
        if |Image(files, LowerSuffix)| != 1 then
          Err(MixedExtensions)
        else
          var ext := LowerSuffix(files[0]);
          if ext !in LowerAll(allowed) then Err(ExtensionNotAllowed(ext))
          else Ok(Listing(Sort(FilePaths(dir, files)), ext))
  }

  // ---------------------------------------------------------------------
  // Renaming
  // ---------------------------------------------------------------------

  datatype Move = Move(source: string, target: string)

  datatype RenameError = CountMismatch(files: nat, names: nat)

  /** The new names with one leading "" discarded, and only that one. */
  function DropLeadingBlank(names: seq<string>): (r: seq<string>)
    ensures names != [] && names[0] == [] ==> r == names[1..]
    ensures !(names != [] && names[0] == []) ==> r == names
  {
    if names != [] && names[0] == [] then names[1..] else names
  }

  /** `parent / (new + suffix)` for one file. A name without '/' is the
      target's name; a name starting with '/' is absolute and replaces the
      folder. */
  function Destination(original: string, newName: string): (t: string)
    ensures NoChar(newName, '/') ==> Name(t) == newName + Suffix(original)
    ensures newName != [] && newName[0] == '/' ==> t == newName + Suffix(original)
  {
    var ext := Suffix(original);
    NoCharAppend(newName, ext, '/');
    JoinPath(Parent(original), newName + ext)
  }

  /** A generated name of the form "/x" takes the file out of its folder
      into the root, since pathlib lets an absolute name replace the folder. */
  lemma AbsoluteNameLeavesFolder(original: string, newName: string)
    requires newName != [] && newName[0] == '/' && NoChar(newName[1..], '/')
    requires Parent(original) != "/"
    ensures Parent(Destination(original, newName)) == "/" != Parent(original)
  {
    var ext := Suffix(original);
    var t := newName + ext;
    assert Destination(original, newName) == t;
    assert forall k :: 1 <= k < |t| ==> t[k] != '/' by {
      assert forall k :: 1 <= k < |newName| ==> t[k] == newName[1..][k - 1];
      assert forall k :: |newName| <= k < |t| ==> t[k] == ext[k - |newName|];
    }
    assert t[0] == '/';
    assert LastIndexOf(t, '/') == 0;
  }

  /** The moves `rename_files(original_files, new_names)` performs, in
      order, or the count mismatch it raises before moving anything. */
  function RenameFiles(originals: seq<string>, newNames: seq<string>): (r: Result<seq<Move>, RenameError>)
    ensures var names := DropLeadingBlank(newNames);
            && (r.Ok? <==> |originals| == |names|)
            && (r.Err? ==> r.error == CountMismatch(|originals|, |names|))
            && (r.Ok? ==>
                  && |r.value| == |originals|
                  && forall i :: 0 <= i < |originals| ==>
                       r.value[i] == Move(originals[i], Destination(originals[i], names[i])))
  {
    var names := DropLeadingBlank(newNames);
    if |originals| != |names| then Err(CountMismatch(|originals|, |names|))
    else Ok(seq(|originals|, i requires 0 <= i < |originals| => Move(originals[i], Destination(originals[i], names[i]))))
  }

  /** A file given a non-empty new name without '/' stays in its folder,
      keeps its suffix, and is named the new name plus that suffix. */
  lemma DestinationKeepsFolderAndSuffix(original: string, newName: string)
    requires NoDoubleSlash(original) && Suffix(original) != []
    requires newName != [] && NoChar(newName, '/')
    ensures var t := Destination(original, newName);
            && Parent(t) == Parent(original)
            && Suffix(t) == Suffix(original)
            && Name(t) == newName + Suffix(original)
  {
    var ext := Suffix(original);
    var d := Parent(original);
    ParentIsDirectoryForm(original);
    NoCharAppend(newName, ext, '/');
    ParentOfJoin(d, newName + ext);
    SuffixOfRenamed(d, newName, ext);
  }

  /** Every move of a rename plan keeps the file in its folder and keeps its
      suffix, when the generated names are non-empty and have no '/'. */
  lemma RenameKeepsFolderAndSuffix(originals: seq<string>, newNames: seq<string>)
    requires RenameFiles(originals, newNames).Ok?
    requires forall i :: 0 <= i < |originals| ==> NoDoubleSlash(originals[i]) && Suffix(originals[i]) != []
    requires forall n :: n in DropLeadingBlank(newNames) ==> n != [] && NoChar(n, '/')
    ensures var plan := RenameFiles(originals, newNames).value;
            forall i :: 0 <= i < |plan| ==>
              && Parent(plan[i].target) == Parent(plan[i].source)
              && Suffix(plan[i].target) == Suffix(plan[i].source)
  {
    var plan := RenameFiles(originals, newNames).value;
    var names := DropLeadingBlank(newNames);
    forall i | 0 <= i < |plan|
      ensures Parent(plan[i].target) == Parent(plan[i].source)
      ensures Suffix(plan[i].target) == Suffix(plan[i].source)
    {
      assert names[i] in names;
      DestinationKeepsFolderAndSuffix(originals[i], names[i]);
    }
  }

  // ---------------------------------------------------------------------
  // Applying a plan
  // ---------------------------------------------------------------------

  /** The file system after a rename pass, and the index of the move that
      failed, if one did. */
  datatype Applied<C> = Applied(files: map<string, C>, failedAt: Option<nat>)

  /** One POSIX rename: the source must exist; an existing target is
      replaced. */
  function MoveFile<C>(fs: map<string, C>, m: Move): (r: map<string, C>)
    requires m.source in fs
    ensures m.target in r && r[m.target] == fs[m.source]
    ensures forall f :: f != m.target ==> (f in r <==> f in fs && f != m.source)
    ensures forall f :: f in r && f != m.target ==> r[f] == fs[f]
  {
    (fs - {m.source})[m.target := fs[m.source]]
  }

  /** The moves in order; the first whose source is missing stops the pass
      and nothing already moved is moved back. */
  function Execute<C>(fs: map<string, C>, plan: seq<Move>): (r: Applied<C>)
    ensures r.failedAt.Some? ==> r.failedAt.value < |plan|
    decreases |plan|
  {
    if plan == [] then Applied(fs, None)
    else if plan[0].source !in fs then Applied(fs, Some(0))
    else
      var rest := Execute(MoveFile(fs, plan[0]), plan[1..]);
      Applied(rest.files, if rest.failedAt.Some? then Some(rest.failedAt.value + 1) else None)
  }

  /** A pass that stops at move `k` leaves exactly the first `k` moves done,
      and move `k` had no source. */
  lemma {:induction false} ExecuteStopsWithoutRollback<C>(fs: map<string, C>, plan: seq<Move>)
    requires Execute(fs, plan).failedAt.Some?
    ensures var k := Execute(fs, plan).failedAt.value;
            var done := Execute(fs, plan[..k]);
            && done.failedAt.None?
            && done.files == Execute(fs, plan).files
            && plan[k].source !in done.files
    decreases |plan|
  {
    if plan[0].source in fs {
      var next := MoveFile(fs, plan[0]);
      ExecuteStopsWithoutRollback(next, plan[1..]);
      ExecutePrefixStep(fs, plan, Execute(fs, plan).failedAt.value);
    }
  }

  /** A prefix of a plan whose first source exists runs its first move and
      then the rest of the prefix. */
  lemma ExecutePrefixStep<C>(fs: map<string, C>, plan: seq<Move>, k: int)
    requires 1 <= k <= |plan| && plan[0].source in fs
    ensures Execute(fs, plan[..k]).files == Execute(MoveFile(fs, plan[0]), plan[1..][..k - 1]).files
    ensures Execute(fs, plan[..k]).failedAt.None? <==> Execute(MoveFile(fs, plan[0]), plan[1..][..k - 1]).failedAt.None?
  {
    assert plan[..k][0] == plan[0];
    assert plan[..k][1..] == plan[1..][..k - 1];
  }

  /** A plan whose sources are distinct files, whose targets are distinct new
      paths, and where no target is a source. */
  ghost predicate CollisionFree<C>(fs: map<string, C>, plan: seq<Move>) {
    && (forall i :: 0 <= i < |plan| ==> plan[i].source in fs && plan[i].target !in fs)
    && (forall i, j :: 0 <= i < j < |plan| ==> plan[i].source != plan[j].source && plan[i].target != plan[j].target)
    && (forall i, j :: 0 <= i < |plan| && 0 <= j < |plan| ==> plan[i].target != plan[j].source)
  }

  function Sources(plan: seq<Move>): set<string> {
    set i | 0 <= i < |plan| :: plan[i].source
  }

  function Targets(plan: seq<Move>): set<string> {
    set i | 0 <= i < |plan| :: plan[i].target
  }

  lemma SourcesCons(plan: seq<Move>)
    requires plan != []
    ensures Sources(plan) == {plan[0].source} + Sources(plan[1..])
  {
    var tail := plan[1..];
    forall x | x in Sources(plan)
      ensures x in {plan[0].source} + Sources(tail)
    {
      var i :| 0 <= i < |plan| && plan[i].source == x;
      if i > 0 {
        assert tail[i - 1].source == x;
      }
    }
    forall x | x in Sources(tail)
      ensures x in Sources(plan)
    {
      var i :| 0 <= i < |tail| && tail[i].source == x;
      assert plan[i + 1].source == x;
    }
  }

  lemma TargetsCons(plan: seq<Move>)
    requires plan != []
    ensures Targets(plan) == {plan[0].target} + Targets(plan[1..])
  {
    var tail := plan[1..];
    forall x | x in Targets(plan)
      ensures x in {plan[0].target} + Targets(tail)
    {
      var i :| 0 <= i < |plan| && plan[i].target == x;
      if i > 0 {
        assert tail[i - 1].target == x;
      }
    }
    forall x | x in Targets(tail)
      ensures x in Targets(plan)
    {
      var i :| 0 <= i < |tail| && tail[i].target == x;
      assert plan[i + 1].target == x;
    }
  }

  /** After the first move of a collision-free plan the rest of the plan is
      collision-free on the files that result. */
  lemma CollisionFreeTail<C>(fs: map<string, C>, plan: seq<Move>)
    requires plan != [] && CollisionFree(fs, plan)
    ensures plan[0].source in fs && CollisionFree(MoveFile(fs, plan[0]), plan[1..])
  {
    var tail := plan[1..];
    assert forall i :: 0 <= i < |tail| ==> tail[i] == plan[i + 1];
  }

  /** A collision-free plan runs to the end, every file ends up under its
      target with its content, and no other file is touched. */
  lemma {:induction false} CollisionFreeExecution<C>(fs: map<string, C>, plan: seq<Move>)
    requires CollisionFree(fs, plan)
    ensures var r := Execute(fs, plan);
            && r.failedAt.None?
            && r.files.Keys == fs.Keys - Sources(plan) + Targets(plan)
            && (forall i :: 0 <= i < |plan| ==> r.files[plan[i].target] == fs[plan[i].source])
            && (forall p :: p in fs && p !in Sources(plan) ==> r.files[p] == fs[p])
    decreases |plan|
  {
    if plan != [] {
      var next := MoveFile(fs, plan[0]);
      CollisionFreeTail(fs, plan);
      CollisionFreeExecution(next, plan[1..]);
      CollisionFreeStep(fs, plan, Execute(next, plan[1..]).files);
    }
  }

  /** What the rest of a collision-free plan leaves, after its first move,
      is what the whole plan promises. */
  lemma CollisionFreeStep<C>(fs: map<string, C>, plan: seq<Move>, files: map<string, C>)
    requires plan != [] && CollisionFree(fs, plan)
    requires var next, tail := MoveFile(fs, plan[0]), plan[1..];
             && files.Keys == next.Keys - Sources(tail) + Targets(tail)
             && (forall i :: 0 <= i < |tail| ==> files[tail[i].target] == next[tail[i].source])
             && (forall p :: p in next && p !in Sources(tail) ==> files[p] == next[p])
    ensures files.Keys == fs.Keys - Sources(plan) + Targets(plan)
    ensures forall i :: 0 <= i < |plan| ==> files[plan[i].target] == fs[plan[i].source]
    ensures forall p :: p in fs && p !in Sources(plan) ==> files[p] == fs[p]
  {
    SourcesCons(plan);
    TargetsCons(plan);
    assert plan[0].target !in Sources(plan[1..]);
    KeysStep(fs, plan, files);
    TargetsStep(fs, plan, files);
    OthersStep(fs, plan, files);
  }

  lemma KeysStep<C>(fs: map<string, C>, plan: seq<Move>, files: map<string, C>)
    requires plan != [] && plan[0].source in fs && plan[0].target !in Sources(plan[1..])
    requires Sources(plan) == {plan[0].source} + Sources(plan[1..])
    requires Targets(plan) == {plan[0].target} + Targets(plan[1..])
    requires files.Keys == MoveFile(fs, plan[0]).Keys - Sources(plan[1..]) + Targets(plan[1..])
    ensures files.Keys == fs.Keys - Sources(plan) + Targets(plan)
  {
    var m := plan[0];
    assert MoveFile(fs, m).Keys == fs.Keys - {m.source} + {m.target};
  }

  lemma TargetsStep<C>(fs: map<string, C>, plan: seq<Move>, files: map<string, C>)
    requires plan != [] && CollisionFree(fs, plan) && plan[0].target !in Sources(plan[1..])
    requires Targets(plan) == {plan[0].target} + Targets(plan[1..])
    requires files.Keys == MoveFile(fs, plan[0]).Keys - Sources(plan[1..]) + Targets(plan[1..])
    requires files.Keys == fs.Keys - Sources(plan) + Targets(plan)
    requires var next, tail := MoveFile(fs, plan[0]), plan[1..];
             && (forall i :: 0 <= i < |tail| ==> files[tail[i].target] == next[tail[i].source])
             && (forall p :: p in next && p !in Sources(tail) ==> files[p] == next[p])
    ensures forall i :: 0 <= i < |plan| ==> files[plan[i].target] == fs[plan[i].source]
  {
    var tail := plan[1..];
    forall i | 0 < i < |plan|
      ensures files[plan[i].target] == fs[plan[i].source]
    {
      assert tail[i - 1] == plan[i];
    }
  }

  lemma OthersStep<C>(fs: map<string, C>, plan: seq<Move>, files: map<string, C>)
    requires plan != [] && CollisionFree(fs, plan)
    requires Sources(plan) == {plan[0].source} + Sources(plan[1..])
    requires files.Keys == MoveFile(fs, plan[0]).Keys - Sources(plan[1..]) + Targets(plan[1..])
    requires files.Keys == fs.Keys - Sources(plan) + Targets(plan)
    requires var next, tail := MoveFile(fs, plan[0]), plan[1..];
             forall p :: p in next && p !in Sources(tail) ==> files[p] == next[p]
    ensures forall p :: p in fs && p !in Sources(plan) ==> files[p] == fs[p]
  {
  }
}

=== FILE: natural_sort.dfy ===
/** Natural ("human") ordering of path strings, as the `natsort` package
    orders plain strings by default: each string becomes a key of alternating
    text and number chunks (runs of digits read as unsigned integers), keys
    are compared lexicographically, and the sort is stable. */
module NaturalSort {
  import opened Text

  // ---------------------------------------------------------------------
  // Lexicographic order
  // ---------------------------------------------------------------------

  /** Python's `<` on strings and on tuples: the first differing position
      decides, and a proper prefix comes first. */
  function LexLt<T(==)>(lt: (T, T) -> bool, a: seq<T>, b: seq<T>): bool
  {
    if |a| == 0 then |b| > 0
    else if |b| == 0 then false
    else if a[0] == b[0] then LexLt(lt, a[1..], b[1..])
    else lt(a[0], b[0])
  }

  ghost predicate StrictTotalOrder<T(!new)>(lt: (T, T) -> bool) {
    && (forall x :: !lt(x, x))
    && (forall x, y, z :: lt(x, y) && lt(y, z) ==> lt(x, z))
    && (forall x, y :: x == y || lt(x, y) || lt(y, x))
  }

  lemma {:induction false} LexIrreflexive<T>(lt: (T, T) -> bool, a: seq<T>)
    ensures !LexLt(lt, a, a)
    decreases |a|
  {
    if |a| > 0 {
      LexIrreflexive(lt, a[1..]);
    }
  }

  lemma {:induction false} LexConnected<T(!new)>(lt: (T, T) -> bool, a: seq<T>, b: seq<T>)
    requires StrictTotalOrder(lt)
    ensures a == b || LexLt(lt, a, b) || LexLt(lt, b, a)
    decreases |a|
  {
    if |a| > 0 && |b| > 0 && a[0] == b[0] {
      LexConnected(lt, a[1..], b[1..]);
      if a[1..] == b[1..] {
        assert a == [a[0]] + a[1..] && b == [b[0]] + b[1..];
      }
    }
  }

  lemma {:induction false} LexTransitive<T(!new)>(lt: (T, T) -> bool, a: seq<T>, b: seq<T>, c: seq<T>)
    requires StrictTotalOrder(lt)
    requires LexLt(lt, a, b) && LexLt(lt, b, c)
    ensures LexLt(lt, a, c)
    decreases |a|
  {
    if |a| > 0 && a[0] == b[0] && b[0] == c[0] {
      LexTransitive(lt, a[1..], b[1..], c[1..]);
    }
  }

  lemma LexStrictTotalOrder<T(!new)>(lt: (T, T) -> bool)
    requires StrictTotalOrder(lt)
    ensures StrictTotalOrder((a: seq<T>, b: seq<T>) => LexLt(lt, a, b))
  {
    forall a: seq<T> {
      LexIrreflexive(lt, a);
    }
    forall a: seq<T>, b: seq<T>, c: seq<T> | LexLt(lt, a, b) && LexLt(lt, b, c) {
      LexTransitive(lt, a, b, c);
    }
    forall a: seq<T>, b: seq<T> {
      LexConnected(lt, a, b);
    }
  }

  // ---------------------------------------------------------------------
  // Keys
  // ---------------------------------------------------------------------

  datatype Chunk = Words(text: string) | Number(value: nat)

  function CharLt(x: char, y: char): bool {
    x < y
  }

  /** Python's `<` on `str`: code point by code point. */
  function StringLt(a: string, b: string): bool {
    LexLt(CharLt, a, b)
  }

  /** Text chunks compare as strings and number chunks by value. Keys built
      by `Key` have the same kind at each position; the order across kinds
      only makes the relation total. */
  function ChunkLt(x: Chunk, y: Chunk): bool {
    match (x, y)
    case (Words(s), Words(t)) => StringLt(s, t)
    case (Number(m), Number(n)) => m < n
    case (Words(_), Number(_)) => true
    case (Number(_), Words(_)) => false
  }

  function KeyLt(a: seq<Chunk>, b: seq<Chunk>): bool {
    LexLt(ChunkLt, a, b)
  }

  /** Length of the run of digits at the start of `s`. */
  function DigitRun(s: string): (n: nat)
    ensures n <= |s| && AllDigits(s[..n])
    ensures n < |s| ==> !IsDigit(s[n])
  {
    if s != [] && IsDigit(s[0]) then 1 + DigitRun(s[1..]) else 0
  }

  /** Length of the run of non-digits at the start of `s`. */
  function TextRun(s: string): (n: nat)
    ensures n <= |s| && (forall k :: 0 <= k < n ==> !IsDigit(s[k]))
    ensures n < |s| ==> IsDigit(s[n])
    ensures s != [] && !IsDigit(s[0]) ==> n >= 1
  {
    if s != [] && !IsDigit(s[0]) then 1 + TextRun(s[1..]) else 0
  }

  /** The maximal runs of `s`, digit runs read as integers: number and
      text chunks alternate, text chunks are never empty, and the first
      chunk is a number exactly when `s` starts with a digit. */
  function Chunks(s: string): (r: seq<Chunk>)
    ensures s == [] <==> r == []
    ensures s != [] ==> (r[0].Number? <==> IsDigit(s[0]))
    ensures forall i :: 0 <= i < |r| - 1 ==> (r[i].Number? <==> r[i + 1].Words?)
    ensures forall i :: 0 <= i < |r| ==> r[i].Words? ==> r[i].text != []
    decreases |s|
  {
    if s == [] then []
    else
      var n := DigitRun(s);
      if n > 0 then [Number(DigitsValue(s[..n]))] + Chunks(s[n..])
      else
        var m := TextRun(s);
        [Words(s[..m])] + Chunks(s[m..])
  }

  /** The `natsort` key of a string: its chunks, with an empty text chunk in
      front when the string starts with a digit, so that text and number
      chunks alternate from a text chunk on. */
  function Key(s: string): (r: seq<Chunk>)
    ensures r != [] ==> r[0].Words?
    ensures forall i :: 0 <= i < |r| - 1 ==> (r[i].Number? <==> r[i + 1].Words?)
    ensures s != [] && IsDigit(s[0]) ==> r != [] && r[0] == Words([])
  {
    var c := Chunks(s);
    if c != [] && c[0].Number? then [Words([])] + c else c
  }

  /** `a` sorts no later than `b`. */
  predicate NaturalLe(a: string, b: string) {
    !KeyLt(Key(b), Key(a))
  }

  lemma ChunkLtStrictTotalOrder()
    ensures StrictTotalOrder(ChunkLt)
  {
    assert StrictTotalOrder(CharLt);
    LexStrictTotalOrder(CharLt);
    forall x: Chunk
      ensures !ChunkLt(x, x)
    {
      if x.Words? {
        LexIrreflexive(CharLt, x.text);
      }
    }
    forall x: Chunk, y: Chunk, z: Chunk | ChunkLt(x, y) && ChunkLt(y, z)
      ensures ChunkLt(x, z)
    {
      if x.Words? && y.Words? && z.Words? {
        LexTransitive(CharLt, x.text, y.text, z.text);
      }
    }
    forall x: Chunk, y: Chunk
      ensures x == y || ChunkLt(x, y) || ChunkLt(y, x)
    {
      if x.Words? && y.Words? {
        LexConnected(CharLt, x.text, y.text);
      }
    }
  }

  /** Any two strings are comparable. */
  lemma NaturalLeTotal(a: string, b: string)
    ensures NaturalLe(a, b) || NaturalLe(b, a)
  {
    ChunkLtStrictTotalOrder();
    if KeyLt(Key(b), Key(a)) && KeyLt(Key(a), Key(b)) {
      LexTransitive(ChunkLt, Key(a), Key(b), Key(a));
      LexIrreflexive(ChunkLt, Key(a));
    }
  }

  lemma NaturalLeTransitive(a: string, b: string, c: string)
    requires NaturalLe(a, b) && NaturalLe(b, c)
    ensures NaturalLe(a, c)
  {
    ChunkLtStrictTotalOrder();
    if KeyLt(Key(c), Key(a)) {
      LexConnected(ChunkLt, Key(a), Key(b));
      if KeyLt(Key(a), Key(b)) {
        LexTransitive(ChunkLt, Key(c), Key(a), Key(b));
      }
    }
  }

  // ---------------------------------------------------------------------
  // Sorting
  // ---------------------------------------------------------------------

  /** Ordered by `le`: every element comes no later than those after it. */
  ghost predicate SortedBy<T>(le: (T, T) -> bool, xs: seq<T>) {
    forall i, j :: 0 <= i < j < |xs| ==> le(xs[i], xs[j])
  }

  ghost predicate Sorted(xs: seq<string>) {
    SortedBy(NaturalLe, xs)
  }

  /** An element no later than every element of a sorted list can go in
      front of it. The relation is a parameter, so the proof does not look
      into the natural order's keys. */
  lemma SortedPrepend<T>(le: (T, T) -> bool, x: T, xs: seq<T>)
    requires SortedBy(le, xs)
    requires forall k :: 0 <= k < |xs| ==> le(x, xs[k])
    ensures SortedBy(le, [x] + xs)
  {
    var r := [x] + xs;
    forall i, j | 0 <= i < j < |r|
      ensures le(r[i], r[j])
    {
      assert r[j] == xs[j - 1];
      if i > 0 {
        assert r[i] == xs[i - 1];
      }
    }
  }

  lemma SortedTail<T>(le: (T, T) -> bool, xs: seq<T>)
    requires SortedBy(le, xs) && xs != []
    ensures SortedBy(le, xs[1..])
  {
    forall i, j | 0 <= i < j < |xs| - 1
      ensures le(xs[1..][i], xs[1..][j])
    {
      assert xs[1..][i] == xs[i + 1] && xs[1..][j] == xs[j + 1];
    }
  }

  /** Inserts `x` before the first element it sorts no later than, so that
      it lands ahead of the elements with an equal key. */
  function Insert(x: string, xs: seq<string>): (r: seq<string>)
    requires Sorted(xs)
    ensures multiset(r) == multiset(xs) + multiset{x}
    ensures Sorted(r)
  {
    if xs == [] then [x]
    else if NaturalLe(x, xs[0]) then
      InsertFrontSorted(x, xs);
      [x] + xs
    else
      SortedTail(NaturalLe, xs);
      var r := Insert(x, xs[1..]);
      NaturalLeTotal(x, xs[0]);
      HeadBelowAll(NaturalLe, x, xs, r);
      [xs[0]] + r
  }

  lemma InsertFrontSorted(x: string, xs: seq<string>)
    requires Sorted(xs) && xs != [] && NaturalLe(x, xs[0])
    ensures Sorted([x] + xs)
  {
    forall k | 0 < k < |xs|
      ensures NaturalLe(x, xs[k])
    {
      NaturalLeTransitive(x, xs[0], xs[k]);
    }
    SortedPrepend(NaturalLe, x, xs);
  }

  /** When `x` sorts no earlier than the head, the head stays in front of
      the tail with `x` inserted. */
  lemma HeadBelowAll<T>(le: (T, T) -> bool, x: T, xs: seq<T>, r: seq<T>)
    requires SortedBy(le, xs) && xs != [] && le(xs[0], x)
    requires SortedBy(le, r) && multiset(r) == multiset(xs[1..]) + multiset{x}
    ensures SortedBy(le, [xs[0]] + r)
    ensures multiset([xs[0]] + r) == multiset(xs) + multiset{x}
  {
    forall k | 0 <= k < |r| && r[k] != x
      ensures le(xs[0], r[k])
    {
      assert r[k] in multiset(r);
      assert r[k] in multiset(xs[1..]);
      var j :| 0 <= j < |xs[1..]| && xs[1..][j] == r[k];
      assert xs[j + 1] == r[k];
    }
    SortedPrepend(le, xs[0], r);
    assert xs == [xs[0]] + xs[1..];
  }

  /** `natsorted(xs)`: a stable insertion sort by the natural order. */
  function Sort(xs: seq<string>): (r: seq<string>)
    ensures multiset(r) == multiset(xs)
    ensures Sorted(r)
  {
    if xs == [] then []
    else
      assert xs == [xs[0]] + xs[1..];
      Insert(xs[0], Sort(xs[1..]))
  }
}

=== FILE: paginated_selection.dfy ===
/** The column picker: the spreadsheet's column names, filtered by a search
    text, shown a page at a time and laid out column-major in a fixed number
    of columns, each with a check box that adds the name to or removes it
    from the selection. */
module PaginatedSelection {
  import opened Text
  import opened Arith

  /** The defaults the renamer opens the picker with. */
  const ItemsPerPage: int := 20
  const NumColumns: int := 3

  // ---------------------------------------------------------------------
  // Pages
  // ---------------------------------------------------------------------

  /** Python's `s[a:b]` for `0 <= a <= b`: the bounds are cut back to the
      length. */
  function Slice(s: seq<string>, a: nat, b: nat): (r: seq<string>)
    requires a <= b
    ensures |r| <= b - a
    ensures a <= |s| ==> r == s[a..if b <= |s| then b else |s|]
    ensures a >= |s| ==> r == []
  {
    var lo := if a <= |s| then a else |s|;
    var hi := if b <= |s| then b else |s|;
    s[lo..hi]
  }

  /** `filtered[(page - 1) * per : page * per]`: what page `page` shows. */
  function PageOptions(filtered: seq<string>, page: int, per: int): (r: seq<string>)
    requires page >= 1 && per > 0
    ensures |r| <= per
    ensures page <= CeilDiv(|filtered|, per) ==> r != []
    ensures page > CeilDiv(|filtered|, per) ==> r == []
  {
    PageBounds(|filtered|, page, per);
    Slice(filtered, (page - 1) * per, page * per)
  }

  lemma PageBounds(n: nat, page: int, per: int)
    requires page >= 1 && per > 0
    ensures 0 <= (page - 1) * per <= page * per == (page - 1) * per + per
    ensures page <= CeilDiv(n, per) ==> (page - 1) * per < n
    ensures page > CeilDiv(n, per) ==> (page - 1) * per >= n
  {
    MulMonotone(0, page - 1, per);
    MulMonotone(page - 1, page, per);
    var r := CeilDiv(n, per);
    if page <= r {
      MulMonotone(page - 1, r - 1, per);
    } else {
      MulMonotone(r, page - 1, per);
    }
  }

  /** Pages `1..k` one after the other. */
  function FirstPages(filtered: seq<string>, k: nat, per: int): seq<string>
    requires per > 0
  {
    if k == 0 then [] else FirstPages(filtered, k - 1, per) + PageOptions(filtered, k, per)
  }

  /** The first `k` pages are the first `k * per` items. */
  lemma {:induction false} FirstPagesArePrefix(filtered: seq<string>, k: nat, per: int)
    requires per > 0
    ensures FirstPages(filtered, k, per) == filtered[..if k * per <= |filtered| then k * per else |filtered|]
  {
    if k > 0 {
      FirstPagesArePrefix(filtered, k - 1, per);
      PageBounds(|filtered|, k, per);
      PrefixThenSlice(filtered, (k - 1) * per, k * per);
    }
  }

  /** The clamped prefix up to `a` followed by the slice `[a:b]` is the
      clamped prefix up to `b`. */
  lemma PrefixThenSlice(s: seq<string>, a: nat, b: nat)
    requires a <= b
    ensures s[..if a <= |s| then a else |s|] + Slice(s, a, b) == s[..if b <= |s| then b else |s|]
  {
    if a <= |s| {
      var hi := if b <= |s| then b else |s|;
      assert s[..a] + s[a..hi] == s[..hi];
    }
  }

  /** Paging through every page shows every item once, in order. */
  lemma PagesCoverAll(filtered: seq<string>, per: int)
    requires per > 0
    ensures FirstPages(filtered, CeilDiv(|filtered|, per), per) == filtered
  {
    FirstPagesArePrefix(filtered, CeilDiv(|filtered|, per), per);
  }

  // ---------------------------------------------------------------------
  // Layout
  // ---------------------------------------------------------------------

  /** The grid position of item `k` of a page of `m` items in `cols`
      columns: `rows = ceil(m / cols)`, column `k // rows`, row `k % rows`. */
  function Position(m: nat, cols: int, k: nat): (p: (int, int))
    requires cols > 0 && k < m
    ensures 0 <= p.0 < cols && 0 <= p.1 < CeilDiv(m, cols)
    ensures p.0 * CeilDiv(m, cols) + p.1 == k
  {
    var rows := CeilDiv(m, cols);
    ColumnInRange(m, cols, k);
    (k / rows, k % rows)
  }

  lemma ColumnInRange(m: nat, cols: int, k: nat)
    requires cols > 0 && k < m
    ensures CeilDiv(m, cols) >= 1 && k / CeilDiv(m, cols) < cols
  {
    var rows := CeilDiv(m, cols);
    var c := k / rows;
    assert c * rows <= k;
    if c >= cols {
      MulMonotone(cols, c, rows);
      assert false;
    }
  }

  /** No two items of a page share a position. */
  lemma PositionsDistinct(m: nat, cols: int, j: nat, k: nat)
    requires cols > 0 && j < m && k < m && j != k
    ensures Position(m, cols, j) != Position(m, cols, k)
  {
  }

  // ---------------------------------------------------------------------
  // The picker
  // ---------------------------------------------------------------------

  /** The picker's state: every option, the options passing the search, the
      current page (1-based), the page count, the selection, and the options
      whose check box is ticked. */
  datatype Selector = Selector(
    all: seq<string>,
    filtered: seq<string>,
    page: int,
    totalPages: nat,
    selected: set<string>,
    ticked: set<string>)

  /** The state the picker keeps: the page is within range, the page count
      is that of the filtered list, and the ticks are the selection. */
  ghost predicate Valid(s: Selector) {
    && 1 <= s.page && (s.page == 1 || s.page <= s.totalPages)
    && s.totalPages == CeilDiv(|s.filtered|, ItemsPerPage)
    && s.ticked == s.selected
  }

  /** `PaginatedSelector(parent, options)`. */
  function Open(options: seq<string>): (s: Selector)
    ensures Valid(s)
    ensures s.filtered == s.all == options && s.page == 1 && s.selected == {}
  {
    Selector(options, options, 1, CeilDiv(|options|, ItemsPerPage), {}, {})
  }

  /** What the current page shows. */
  function Shown(s: Selector): seq<string>
    requires s.page >= 1
  {
    PageOptions(s.filtered, s.page, ItemsPerPage)
  }

  /** `select_option(option)` with the check box's value: ticked adds the
      option, unticked discards it. */
  function SelectOption(selected: set<string>, option: string, isTicked: bool): (r: set<string>)
    ensures option in r <==> isTicked
    ensures forall o :: o != option ==> (o in r <==> o in selected)
  {
    if isTicked then selected + {option} else selected - {option}
  }

  /** A click on an option's check box flips it, then `select_option` runs. */
  function Click(s: Selector, option: string): (r: Selector)
    ensures r.all == s.all && r.filtered == s.filtered && r.page == s.page && r.totalPages == s.totalPages
    ensures Valid(s) ==> Valid(r)
    ensures Valid(s) ==> (option in r.selected <==> option !in s.selected)
  {
    var t := if option in s.ticked then s.ticked - {option} else s.ticked + {option};
    s.(ticked := t, selected := SelectOption(s.selected, option, option in t))
  }

  /** `prev_page()`. */
  function PrevPage(s: Selector): (r: Selector)
    ensures Valid(s) ==> Valid(r)
    ensures r.selected == s.selected && r.filtered == s.filtered
    ensures s.page > 1 ==> r.page == s.page - 1
    ensures s.page <= 1 ==> r == s
  {
    if s.page > 1 then s.(page := s.page - 1) else s
  }

  /** `next_page()`. */
  function NextPage(s: Selector): (r: Selector)
    ensures Valid(s) ==> Valid(r)
    ensures r.selected == s.selected && r.filtered == s.filtered
    ensures s.page < s.totalPages ==> r.page == s.page + 1
    ensures s.page >= s.totalPages ==> r == s
  {
    if s.page < s.totalPages then s.(page := s.page + 1) else s
  }

  /** `[o for o in options if query in o.lower()]`. */
  function Matching(options: seq<string>, query: string): (r: seq<string>)
    ensures forall o :: o in r <==> o in options && Contains(Lower(o), query)
    ensures |r| <= |options|
  {
    if options == [] then []
    else
      var rest := Matching(options[1..], query);
      assert forall o :: o in options <==> o == options[0] || o in options[1..];
      if Contains(Lower(options[0]), query) then [options[0]] + rest else rest
  }

  /** Matching keeps the options' order: it works piece by piece. */
  lemma {:induction false} MatchingAppend(a: seq<string>, b: seq<string>, query: string)
    ensures Matching(a + b, query) == Matching(a, query) + Matching(b, query)
  {
    if a != [] {
      assert (a + b)[0] == a[0] && (a + b)[1..] == a[1..] + b;
      MatchingAppend(a[1..], b, query);
    } else {
      assert a + b == b;
    }
  }

  /** Searching the results of a search again changes nothing. */
  lemma {:induction false} MatchingIdempotent(options: seq<string>, query: string)
    ensures Matching(Matching(options, query), query) == Matching(options, query)
  {
    if options != [] {
      MatchingIdempotent(options[1..], query);
      var rest := Matching(options[1..], query);
      if Contains(Lower(options[0]), query) {
        assert ([options[0]] + rest)[1..] == rest;
      }
    }
  }

  /** An empty search matches everything, so the picker's special case for
      it gives what matching would. */
  lemma {:induction false} EmptyQueryMatchesAll(options: seq<string>)
    ensures Matching(options, []) == options
  {
    if options != [] {
      assert MatchAt(Lower(options[0]), 0, []);
      EmptyQueryMatchesAll(options[1..]);
    }
  }

  /** `filter_options()` with the search box holding `text`: the options
      containing it (both lower-cased), back on page 1. */
  function FilterOptions(s: Selector, text: string): (r: Selector)
    ensures Valid(s) ==> Valid(r)
    ensures r.page == 1 && r.all == s.all
    ensures r.selected == s.selected && r.ticked == s.ticked
    ensures text == [] ==> r.filtered == s.all
    ensures forall o :: o in r.filtered <==> o in s.all && Contains(Lower(o), Lower(text))
    ensures r.filtered == Matching(s.all, Lower(text))
  {
    var query := Lower(text);
    var filtered := if query != [] then Matching(s.all, query) else s.all;
    EmptyQueryMatchesAll(s.all);
    s.(filtered := filtered, page := 1, totalPages := CeilDiv(|filtered|, ItemsPerPage))
  }
}

=== FILE: paths.dfy ===
/** POSIX path strings as the renamer uses them: `os.path.splitext`,
    `os.path.join`, and the `name`, `parent` and `suffix` of a
    `pathlib.Path`. A path is its text; `/` separates components. */
module Paths {

  /** Python's `s.rfind(c)`: the last index of `c`, or -1. */
  function LastIndexOf(s: string, c: char): (r: int)
    ensures -1 <= r < |s|
    ensures r >= 0 ==> s[r] == c
    ensures forall k :: r < k < |s| ==> s[k] != c
  {
    LastIndexBefore(s, c, |s|)
  }

  /** The last index below `n` holding `c`, or -1. */
  function LastIndexBefore(s: string, c: char, n: nat): (r: int)
    requires n <= |s|
    ensures -1 <= r < n
    ensures r >= 0 ==> s[r] == c
    ensures forall k :: r < k < n ==> s[k] != c
  {
    if n == 0 then -1
    else if s[n - 1] == c then n - 1
    else LastIndexBefore(s, c, n - 1)
  }

  predicate NoChar(s: string, c: char) {
    forall k :: 0 <= k < |s| ==> s[k] != c
  }

  /** `os.path.splitext` (POSIX): the extension starts at the last '.' of the
      last component, unless everything before that dot in the component is
      dots too (so ".bashrc" and "..pdf" have no extension). */
  function Splitext(p: string): (r: (string, string))
    ensures r.0 + r.1 == p
    ensures r.1 != [] ==> r.1[0] == '.' && NoChar(r.1[1..], '.') && NoChar(r.1[1..], '/')
    ensures r.1 != [] ==> HasNonDot(r.0[LastIndexOf(r.0, '/') + 1..])
  {
    var sep := LastIndexOf(p, '/');
    var dot := LastIndexOf(p, '.');
    if dot > sep && exists k :: sep + 1 <= k < dot && p[k] != '.' then
      SplitAtDot(p, sep, dot);
      (p[..dot], p[dot..])
    else
      (p, [])
  }

  lemma SplitAtDot(p: string, sep: int, dot: int)
    requires sep == LastIndexOf(p, '/') && dot == LastIndexOf(p, '.')
    requires dot > sep && exists k :: sep + 1 <= k < dot && p[k] != '.'
    ensures var root, ext := p[..dot], p[dot..];
            && root + ext == p
            && ext[0] == '.' && NoChar(ext[1..], '.') && NoChar(ext[1..], '/')
            && HasNonDot(root[LastIndexOf(root, '/') + 1..])
  {
    assert p[..dot] + p[dot..] == p;
    ExtensionAfterLastDot(p, sep, dot);
    var k :| sep + 1 <= k < dot && p[k] != '.';
    PrefixLastIndex(p, '/', dot);
    StemNonDot(p, sep, dot, k);
  }

  /** From the last '.' on, after the last '/', there is no other '.' or
      '/'. */
  lemma ExtensionAfterLastDot(p: string, sep: int, dot: int)
    requires sep == LastIndexOf(p, '/') && dot == LastIndexOf(p, '.') && dot > sep
    ensures var ext := p[dot..]; ext[0] == '.' && NoChar(ext[1..], '.') && NoChar(ext[1..], '/')
  {
    var ext := p[dot..];
    assert forall k :: 0 <= k < |ext| - 1 ==> ext[1..][k] == p[dot + 1 + k];
  }

  /** Cutting `p` after its last `c` keeps that `c` the last. */
  lemma PrefixLastIndex(p: string, c: char, n: int)
    requires LastIndexOf(p, c) < n <= |p|
    ensures LastIndexOf(p[..n], c) == LastIndexOf(p, c)
  {
    var r := LastIndexOf(p, c);
    var q := p[..n];
    assert forall j :: r < j < |q| ==> q[j] != c by {
      assert forall j :: r < j < |q| ==> q[j] == p[j];
    }
    assert r >= 0 ==> q[r] == c;
    LastIndexOfUnique(q, c, r);
  }

  /** The stem's last component keeps the non-dot character at `k`. */
  lemma StemNonDot(p: string, sep: int, dot: int, k: int)
    requires -1 <= sep && sep + 1 <= k < dot <= |p| && p[k] != '.'
    ensures HasNonDot(p[..dot][sep + 1..])
  {
    assert p[..dot][sep + 1..][k - sep - 1] == p[k];
  }

  /** `rfind` is the one index holding `c` with no `c` after it. */
  lemma LastIndexOfUnique(s: string, c: char, r: int)
    requires -1 <= r < |s| && (r >= 0 ==> s[r] == c)
    requires forall k :: r < k < |s| ==> s[k] != c
    ensures LastIndexOf(s, c) == r
  {
    LastIndexBeforeUnique(s, c, |s|, r);
  }

  lemma {:induction false} LastIndexBeforeUnique(s: string, c: char, n: nat, r: int)
    requires n <= |s| && -1 <= r < n && (r >= 0 ==> s[r] == c)
    requires forall k :: r < k < n ==> s[k] != c
    ensures LastIndexBefore(s, c, n) == r
  {
    if n > 0 && r < n - 1 {
      LastIndexBeforeUnique(s, c, n - 1, r);
    }
  }

  /** Appending text without `c` keeps the last `c` where it was. */
  lemma LastIndexOfAppend(a: string, b: string, c: char)
    requires NoChar(b, c)
    ensures LastIndexOf(a + b, c) == LastIndexOf(a, c)
  {
    var r := LastIndexOf(a, c);
    var p := a + b;
    forall k | r < k < |p|
      ensures p[k] != c
    {
      if k < |a| {
        assert p[k] == a[k];
      } else {
        assert p[k] == b[k - |a|];
      }
    }
    if r >= 0 {
      assert p[r] == a[r];
    }
    LastIndexOfUnique(p, c, r);
  }

  /** The last `c` of `a + [c] + b`, for `b` without `c`, is the one put
      between them. */
  lemma LastIndexOfMarked(a: string, c: char, b: string)
    requires NoChar(b, c)
    ensures LastIndexOf(a + [c] + b, c) == |a|
  {
    LastIndexOfAppend(a + [c], b, c);
    LastIndexOfUnique(a + [c], c, |a|);
  }

  lemma NoCharAppend(a: string, b: string, c: char)
    requires NoChar(b, c)
    ensures NoChar(a, c) ==> NoChar(a + b, c)
  {
    forall k | 0 <= k < |a + b| && NoChar(a, c)
      ensures (a + b)[k] != c
    {
      if k < |a| {
        assert (a + b)[k] == a[k];
      } else {
        assert (a + b)[k] == b[k - |a|];
      }
    }
  }

  predicate HasNonDot(s: string) {
    exists k :: 0 <= k < |s| && s[k] != '.'
  }

  /** `Path(p).name`: the text after the last '/'. */
  function Name(p: string): (n: string)
    ensures NoChar(n, '/')
    ensures |n| <= |p|
  {
    p[LastIndexOf(p, '/') + 1..]
  }

  /** The name is the path's longest tail without '/'. */
  lemma NameIsTail(p: string)
    ensures Name(p) == p[|p| - |Name(p)|..]
    ensures forall j :: 0 <= j < |p| - |Name(p)| ==> !NoChar(p[j..], '/')
  {
    var m := |p| - |Name(p)|;
    forall j | 0 <= j < m
      ensures !NoChar(p[j..], '/')
    {
      assert p[j..][m - 1 - j] == p[m - 1];
    }
  }

  /** `Path(p).parent` for a path without repeated or trailing separators:
      the text before the last '/', "/" for a file in the root, and "." for
      a bare name. */
  function Parent(p: string): (d: string)
    ensures d != []
  {
    var k := LastIndexOf(p, '/');
    if k < 0 then "." else if k == 0 then "/" else p[..k]
  }

  /** `Path(p).suffix`: the name's text from its last '.', provided that dot
      is neither the first nor the last character of the name. */
  function Suffix(p: string): (s: string)
    ensures s != [] ==> SuffixForm(s)
    ensures s != [] ==> |Name(p)| > |s| && Name(p)[|Name(p)| - |s|..] == s
  {
    var name := Name(p);
    var i := LastIndexOf(name, '.');
    if 0 < i < |name| - 1 then SuffixAt(name, i); name[i..] else []
  }

  lemma SuffixAt(name: string, i: int)
    requires NoChar(name, '/') && 0 < i < |name| - 1 && name[i] == '.'
    requires forall k :: i < k < |name| ==> name[k] != '.'
    ensures SuffixForm(name[i..]) && |name| > |name[i..]| && name[|name| - |name[i..]|..] == name[i..]
  {
    var s := name[i..];
    assert forall k :: 0 <= k < |s| ==> s[k] == name[i + k];
    assert forall k :: 0 <= k < |s| - 1 ==> s[1..][k] == name[i + 1 + k];
  }

  /** What a non-empty `Suffix` looks like: a dot, then at least one
      character, none of them '.' or '/'. */
  predicate SuffixForm(s: string) {
    |s| >= 2 && s[0] == '.' && NoChar(s[1..], '.') && NoChar(s, '/')
  }

  /** `os.path.join(a, b)` and `Path(a) / b`: an absolute `b` replaces `a`,
      a relative one is appended after a single '/'. */
  function JoinPath(a: string, b: string): (r: string)
    ensures a != [] && NoChar(b, '/') ==> Name(r) == b
    ensures |r| >= |b| && r[|r| - |b|..] == b
    ensures b != [] && b[0] != '/' ==> |r| > |a|
  {
    if a == [] || (b != [] && b[0] == '/') then b
    else if a[|a| - 1] == '/' then
      var r := a + b;
      assert forall k :: |a| <= k < |r| ==> r[k] == b[k - |a|];
      assert r[|a| - 1] == '/';
      r
    else
      var r := a + "/" + b;
      assert forall k :: |a| + 1 <= k < |r| ==> r[k] == b[k - |a| - 1];
      assert r[|a|] == '/';
      r
  }

  /** A directory path that `Parent` can give back: the root, or a path that
      does not end in '/'. */
  predicate DirectoryForm(d: string) {
    d == "/" || (d != [] && d[|d| - 1] != '/')
  }

  predicate NoDoubleSlash(p: string) {
    forall i :: 0 < i < |p| ==> !(p[i - 1] == '/' && p[i] == '/')
  }

  /** Joining a name onto a directory and taking the parent gives the
      directory back. */
  lemma ParentOfJoin(d: string, n: string)
    requires DirectoryForm(d) && NoChar(n, '/')
    ensures Parent(JoinPath(d, n)) == d
  {
    var r := JoinPath(d, n);
    RelativeJoin(d, n);
    if d == "/" {
      assert r == [] + ['/'] + n;
      LastIndexOfMarked([], '/', n);
    } else {
      assert r == d + ['/'] + n;
      LastIndexOfMarked(d, '/', n);
      assert r[..|d|] == d;
    }
  }

  /** A path with a '/' whose last '/' is not doubled is its parent joined
      with its name. */
  lemma JoinParentName(p: string)
    requires LastIndexOf(p, '/') >= 0
    requires LastIndexOf(p, '/') == 0 || p[LastIndexOf(p, '/') - 1] != '/'
    ensures JoinPath(Parent(p), Name(p)) == p
  {
    var k := LastIndexOf(p, '/');
    var name := p[k + 1..];
    var d := if k > 0 then p[..k] else "/";
    assert Parent(p) == d && Name(p) == name;
    assert name == [] || name[0] != '/';
    assert d[|d| - 1] != '/' <==> k > 0 by {
      if k > 0 {
        assert d[k - 1] == p[k - 1];
      }
    }
    RelativeJoin(d, name);
    calc {
      JoinPath(Parent(p), Name(p));
      JoinPath(d, name);
      { SplitAtSeparator(p, k); }
      p;
    }
  }

  lemma SplitAtSeparator(p: string, k: int)
    requires 0 <= k < |p| && p[k] == '/'
    ensures k > 0 ==> p == p[..k] + "/" + p[k + 1..]
    ensures k == 0 ==> p == "/" + p[1..]
  {
    assert p == p[..k] + [p[k]] + p[k + 1..];
  }

  /** A relative name joined onto a folder that does not end in '/' comes
      after one '/'; onto one that does, right after it. */
  lemma RelativeJoin(d: string, name: string)
    requires d != [] && (name == [] || name[0] != '/')
    ensures d[|d| - 1] != '/' ==> JoinPath(d, name) == d + "/" + name
    ensures d[|d| - 1] == '/' ==> JoinPath(d, name) == d + name
  {
  }

  /** A name starting with '/' is absolute: joined onto any folder, it is
      the whole result and the folder is dropped. */
  lemma AbsoluteJoin(d: string, n: string)
    requires n != [] && n[0] == '/'
    ensures JoinPath(d, n) == n
  {
  }

  /** The parent of a path without repeated separators is in directory
      form, so joining onto it behaves as `ParentOfJoin` says. */
  lemma ParentIsDirectoryForm(p: string)
    requires NoDoubleSlash(p)
    ensures DirectoryForm(Parent(p))
  {
    var k := LastIndexOf(p, '/');
    if k > 0 {
      assert p[k] == '/';
      assert Parent(p)[k - 1] == p[k - 1];
    }
  }

  /** Giving a file a new base name and its own suffix back keeps that
      suffix, as long as the new name is not empty and has no '/'. */
  lemma SuffixOfRenamed(d: string, n: string, ext: string)
    requires d != [] && n != [] && NoChar(n, '/')
    requires SuffixForm(ext)
    ensures Suffix(JoinPath(d, n + ext)) == ext
  {
    var name := n + ext;
    NoCharAppend(n, ext, '/');
    assert name == n + ['.'] + ext[1..];
    LastIndexOfMarked(n, '.', ext[1..]);
    assert name[|n|..] == ext;
    SuffixOfName(JoinPath(d, name), |n|);
  }

  /** A path's suffix read off its name, once the name's last dot is
      known. */
  lemma SuffixOfName(p: string, i: int)
    requires LastIndexOf(Name(p), '.') == i && 0 < i < |Name(p)| - 1
    ensures Suffix(p) == Name(p)[i..]
  {
  }

  /** `os.path.splitext` gives back a stem and an extension glued together,
      provided the stem's last component has a character other than '.'. */
  lemma SplitextOfAppended(stem: string, ext: string)
    requires HasNonDot(Name(stem))
    requires |ext| >= 1 && ext[0] == '.' && NoChar(ext[1..], '.') && NoChar(ext, '/')
    ensures Splitext(stem + ext) == (stem, ext)
  {
    var p := stem + ext;
    assert p == stem + ['.'] + ext[1..];
    LastIndexOfMarked(stem, '.', ext[1..]);
    LastIndexOfAppend(stem, ext, '/');
    var sep := LastIndexOf(stem, '/');
    var j :| 0 <= j < |Name(stem)| && Name(stem)[j] != '.';
    assert p[sep + 1 + j] == Name(stem)[j];
    SplitextAt(p, |stem|, sep + 1 + j);
    assert p[..|stem|] == stem && p[|stem|..] == ext;
  }

  /** `splitext` cuts at the last dot once a non-dot is known to lie
      between the last '/' and that dot. */
  lemma SplitextAt(p: string, dot: int, k: int)
    requires LastIndexOf(p, '.') == dot
    requires LastIndexOf(p, '/') < k < dot && p[k] != '.'
    ensures Splitext(p) == (p[..dot], p[dot..])
  {
  }
}

=== FILE: pdf_splitter.dfy ===
/** `split_pdf`: cutting a document of `total` pages into consecutive chunks
    of `pages_per_chunk` pages, written as `split_1.pdf`, `split_2.pdf`, ...
    The document reader and writer are outside the model: the page count is
    an input (absent when the file cannot be read). */
module PdfSplitter {
  import opened Text
  import opened Arith
  import opened Paths
  import opened Results

  /** Pages `[first, end)` of the input, written to the file `name`. */
  datatype Chunk = Chunk(first: nat, end: nat, name: string)

  /** `f"split_{k}.pdf"`: a plain file name ending in ".pdf". */
  function SplitName(k: nat): (r: string)
    ensures NoChar(r, '/') && |r| > 4 && r[|r| - 4..] == ".pdf"
  {
    var stem := "split_" + NatText(k);
    assert NoChar(stem, '/') by {
      assert forall i :: 6 <= i < |stem| ==> stem[i] == NatText(k)[i - 6];
    }
    var r := stem + ".pdf";
    assert forall i :: |stem| <= i < |r| ==> r[i] == ".pdf"[i - |stem|];
    r
  }

  /** Every file the split writes has the suffix ".pdf", so reloading the
      `split` folder finds PDFs. */
  lemma SplitFilesArePdfs(folder: string, k: nat)
    requires folder != []
    ensures Suffix(JoinPath(folder, SplitName(k))) == ".pdf"
  {
    var stem := "split_" + NatText(k);
    assert NoChar(stem, '/') by {
      assert forall i :: 6 <= i < |stem| ==> stem[i] == NatText(k)[i - 6];
    }
    assert SplitName(k) == stem + ".pdf";
    SuffixOfRenamed(folder, stem, ".pdf");
  }

  /** Different chunk numbers give different file names. */
  lemma SplitNameInjective(a: nat, b: nat)
    requires SplitName(a) == SplitName(b)
    ensures a == b
  {
    var ta, tb := NatText(a), NatText(b);
    assert |ta| == |tb|;
    assert SplitName(a)[6..6 + |ta|] == ta;
    assert SplitName(b)[6..6 + |tb|] == tb;
    NatTextValue(a);
    NatTextValue(b);
  }

  /** What the chunk loop of `split_pdf` produces for `total` pages and a
      positive chunk size. */
  ghost predicate ChunkedAs(chunks: seq<Chunk>, total: nat, per: int) {
    && (chunks == [] <==> total == 0)
    && (chunks != [] ==> chunks[0].first == 0 && chunks[|chunks| - 1].end == total)
    && (forall k :: 0 <= k < |chunks| - 1 ==> chunks[k].end == chunks[k + 1].first)
    && (forall k :: 0 <= k < |chunks| ==> 1 <= chunks[k].end - chunks[k].first <= per)
    && (forall k :: 0 <= k < |chunks| - 1 ==> chunks[k].end - chunks[k].first == per)
    && (forall k :: 0 <= k < |chunks| ==> chunks[k].name == SplitName(k + 1))
  }

  /** Chunk `k`: pages `k * per` up to `min(k * per + per, total)`. A chunk
      that starts before the last page holds between 1 and `per` pages and
      ends no later than the last. */
  function ChunkAt(total: nat, per: int, k: nat): (c: Chunk)
    requires per > 0
    ensures c.first == k * per && c.name == SplitName(k + 1)
    ensures k * per < total ==> c.first < c.end <= total && c.end - c.first <= per
  {
    MulMonotone(0, k, per);
    Chunk(k * per, Min(k * per + per, total), SplitName(k + 1))
  }

  /** The loop `for i in range(0, total, per)`: chunk `i // per` holds pages
      `i` up to `min(i + per, total)`. A chunk size of 0 makes `range` raise,
      a negative one makes it empty. */
  method PlanChunks(total: nat, per: int) returns (ok: bool, chunks: seq<Chunk>)
    ensures per == 0 ==> !ok && chunks == []
    ensures per < 0 ==> ok && chunks == []
    ensures per > 0 ==> ok && |chunks| == CeilDiv(total, per) && ChunkedAs(chunks, total, per)
  {
    if per == 0 {
      return false, [];
    }
    if per < 0 {
      return true, [];
    }
    chunks := [];
    var i := 0;
    while i < total
      invariant i == |chunks| * per
      invariant chunks == [] || (|chunks| - 1) * per < total
      invariant forall k :: 0 <= k < |chunks| ==> chunks[k] == ChunkAt(total, per, k)
      decreases total - i
    {
      MulFacts(|chunks|, per);
      chunks := chunks + [Chunk(i, Min(i + per, total), SplitName(i / per + 1))];
      i := i + per;
    }
    CountIsCeil(total, per, |chunks|);
    ChunkAtShape(total, per, chunks);
    ok := true;
  }

  lemma MulFacts(n: nat, per: int)
    requires per > 0
    ensures (n * per) / per == n
    ensures (n + 1) * per == n * per + per
    ensures n * per >= 0
  {
    MulMonotone(0, n, per);
  }

  lemma DivFacts(p: nat, per: int)
    requires per > 0
    ensures 0 <= p / per && (p / per) * per <= p < (p / per) * per + per
  {
  }

  lemma CountIsCeil(total: nat, per: int, n: nat)
    requires per > 0 && n * per >= total && (n == 0 || (n - 1) * per < total)
    ensures n == CeilDiv(total, per)
  {
    CeilDivLeast(total, per, n);
    var c := CeilDiv(total, per);
    if c < n {
      MulMonotone(c, n - 1, per);
      assert false;
    }
  }

  /** The chunks `ChunkAt` gives for `0 <= k < ceil(total / per)` are
      consecutive, cover every page, hold `per` pages each except the last,
      which holds between 1 and `per`, and are numbered from 1. */
  lemma ChunkAtShape(total: nat, per: int, chunks: seq<Chunk>)
    requires per > 0 && |chunks| == CeilDiv(total, per)
    requires forall k :: 0 <= k < |chunks| ==> chunks[k] == ChunkAt(total, per, k)
    ensures ChunkedAs(chunks, total, per)
  {
    var n := |chunks|;
    forall k | 0 <= k < n
      ensures 1 <= chunks[k].end - chunks[k].first <= per
    {
      ChunkAtFacts(total, per, n, k);
    }
    forall k | 0 <= k < n - 1
      ensures chunks[k].end == chunks[k + 1].first && chunks[k].end - chunks[k].first == per
    {
      ChunkAtFacts(total, per, n, k);
    }
    if n > 0 {
      ChunkAtFacts(total, per, n, n - 1);
      ChunkAtFacts(total, per, n, 0);
    }
  }

  lemma ChunkAtFacts(total: nat, per: int, n: nat, k: nat)
    requires per > 0 && n == CeilDiv(total, per) && k < n
    ensures var c := ChunkAt(total, per, k);
            && c.first == k * per
            && 1 <= c.end - c.first <= per
            && (k < n - 1 ==> c.end == ChunkAt(total, per, k + 1).first && c.end - c.first == per)
            && (k == n - 1 ==> c.end == total)
            && (k == 0 ==> c.first == 0)
  {
    MulFacts(k, per);
    MulMonotone(k, n - 1, per);
    if k < n - 1 {
      MulMonotone(k + 1, n - 1, per);
    } else {
      MulFacts(n - 1, per);
    }
  }

  /** `j` is `p // per` exactly when `p` lies in `[j * per, j * per + per)`. */
  lemma DivUnique(p: nat, per: int, j: nat)
    requires per > 0 && j * per <= p < j * per + per
    ensures j == p / per
  {
    DivFacts(p, per);
    BlockUnique(p, per, j, p / per);
  }

  /** A page lies in one block of `per` pages only. */
  lemma BlockUnique(p: int, per: int, j: nat, q: nat)
    requires per > 0
    requires j * per <= p < j * per + per
    requires q * per <= p < q * per + per
    ensures j == q
  {
    if j < q {
      MulFacts(j, per);
      MulMonotone(j + 1, q, per);
      assert false;
    } else if j > q {
      MulFacts(q, per);
      MulMonotone(q + 1, j, per);
      assert false;
    }
  }

  /** The chunks partition the pages: every page lies in exactly one chunk,
      the one its index divided by the chunk size names. */
  lemma ChunksPartitionPages(chunks: seq<Chunk>, total: nat, per: int, p: nat)
    requires per > 0 && ChunkedAs(chunks, total, per) && p < total
    ensures p / per < |chunks| && chunks[p / per].first <= p < chunks[p / per].end
    ensures forall k :: 0 <= k < |chunks| && chunks[k].first <= p < chunks[k].end ==> k == p / per
  {
    ChunkStarts(chunks, total, per);
    DivFacts(p, per);
    var k := p / per;
    InChunk(chunks, total, per, p, k);
    forall j | 0 <= j < |chunks| && chunks[j].first <= p < chunks[j].end
      ensures j == k
    {
      assert chunks[j].first == j * per && chunks[j].end <= chunks[j].first + per;
      BlockUnique(p, per, j, k);
    }
  }

  /** Page `p` of block `k` lies in chunk `k`. */
  lemma InChunk(chunks: seq<Chunk>, total: nat, per: int, p: nat, k: nat)
    requires per > 0 && ChunkedAs(chunks, total, per) && p < total
    requires forall i :: 0 <= i < |chunks| ==> chunks[i].first == i * per
    requires k * per <= p < k * per + per
    ensures k < |chunks| && chunks[k].first <= p < chunks[k].end
  {
    var n := |chunks|;
    assert chunks[n - 1].end <= chunks[n - 1].first + per;
    BlockBelow(p, per, n, k);
    if k < n - 1 {
      assert chunks[k].end == chunks[k + 1].first;
      MulFacts(k, per);
    }
  }

  /** A page before `n` full blocks lies in one of the first `n`. */
  lemma BlockBelow(p: nat, per: int, n: nat, k: nat)
    requires per > 0 && n >= 1 && p < (n - 1) * per + per && k * per <= p
    ensures k < n
  {
    if k >= n {
      MulFacts(n - 1, per);
      MulMonotone(n, k, per);
      assert false;
    }
  }

  /** Chunk `k` starts at page `k * per`. */
  lemma ChunkStarts(chunks: seq<Chunk>, total: nat, per: int)
    requires per > 0 && ChunkedAs(chunks, total, per)
    ensures forall k :: 0 <= k < |chunks| ==> chunks[k].first == k * per
  {
    var k := 0;
    while k < |chunks|
      invariant 0 <= k <= |chunks|
      invariant forall j :: 0 <= j < k ==> chunks[j].first == j * per
    {
      if k > 0 {
        MulFacts(k - 1, per);
        assert chunks[k].first == chunks[k - 1].end;
      }
      k := k + 1;
    }
  }

  /** The files written are named for distinct chunk numbers, so none
      overwrites another. */
  lemma ChunkNamesDistinct(chunks: seq<Chunk>, total: nat, per: int, j: int, k: int)
    requires per > 0 && ChunkedAs(chunks, total, per)
    requires 0 <= j < k < |chunks|
    ensures chunks[j].name != chunks[k].name
  {
    assert chunks[j].name == SplitName(j + 1) && chunks[k].name == SplitName(k + 1);
    if SplitName(j + 1) == SplitName(k + 1) {
      SplitNameInjective(j + 1, k + 1);
      assert false;
    }
  }

  /** The result of `split_pdf`: whether it returned `True`, whether it
      created the output folder, and the files it wrote, as full paths. */
  datatype SplitResult = SplitResult(success: bool, createdFolder: bool, written: seq<(string, Chunk)>)

  /** `split_pdf(input, folder, per)` for an input of `pages` pages (`None`
      when opening or reading it raises). The folder is created first, so it
      exists afterwards even when the split fails. */
  method SplitPdf(folder: string, folderExists: bool, pages: Option<nat>, per: int) returns (r: SplitResult)
    ensures r.createdFolder <==> !folderExists
    ensures pages.None? ==> !r.success && r.written == []
    ensures pages.Some? && per == 0 ==> !r.success && r.written == []
    ensures pages.Some? && per < 0 ==> r.success && r.written == []
    ensures pages.Some? && per > 0 ==>
              && r.success
              && |r.written| == CeilDiv(pages.value, per)
              && (forall k :: 0 <= k < |r.written| ==> r.written[k].0 == JoinPath(folder, r.written[k].1.name))
              && ChunkedAs(Seconds(r.written), pages.value, per)
  {
    if pages.None? {
      return SplitResult(false, !folderExists, []);
    }
    var ok, chunks := PlanChunks(pages.value, per);
    r := SplitResult(ok, !folderExists, Written(folder, chunks));
  }

  /** Each chunk paired with the path it is written to. */
  function Written(folder: string, chunks: seq<Chunk>): (w: seq<(string, Chunk)>)
    ensures |w| == |chunks| && Seconds(w) == chunks
    ensures forall k :: 0 <= k < |w| ==> w[k].0 == JoinPath(folder, chunks[k].name)
  {
    var w := seq(|chunks|, k requires 0 <= k < |chunks| => (JoinPath(folder, chunks[k].name), chunks[k]));
    assert Seconds(w) == chunks;
    w
  }

  function Seconds<A, B>(xs: seq<(A, B)>): (r: seq<B>)
    ensures |r| == |xs| && forall i :: 0 <= i < |xs| ==> r[i] == xs[i].1
  {
    if xs == [] then [] else [xs[0].1] + Seconds(xs[1..])
  }
}

=== FILE: replace.dfy ===
/** Python's `str.replace(pat, rep)` (replace every occurrence), together
    with an independent description of it: cut the text at the leftmost
    non-overlapping occurrences of `pat` (`Split`, Python's `str.split`) and
    glue the pieces back with `rep` (`Join`, Python's `rep.join`). */
module Replace {
  import opened Text
  import Arith

  /** Python's `s.replace(pat, rep)`: scans left to right and replaces each
      occurrence of `pat` that does not overlap an earlier replaced one. An
      empty `pat` matches before every character and at the end. */
  function ReplaceAll(s: string, pat: string, rep: string): (r: string)
    ensures pat != [] && !Contains(s, pat) ==> r == s
    decreases |s|
  {
    if pat == [] then InsertEverywhere(s, rep)
    else if |s| < |pat| then s
    else if s[..|pat|] == pat then rep + ReplaceAll(s[|pat|..], pat, rep)
    else [s[0]] + ReplaceAll(s[1..], pat, rep)
  }

  /** `s.replace("", rep)`: `rep` before every character and at the end. */
  function InsertEverywhere(s: string, rep: string): (r: string)
    ensures |r| == |s| + (|s| + 1) * |rep|
    ensures r[..|rep|] == rep && r[|r| - |rep|..] == rep
  {
    if s == [] then rep
    else
      var t := InsertEverywhere(s[1..], rep);
      EndsWith(rep + [s[0]], t, rep);
      Arith.MulSucc(|s|, |rep|);
      rep + [s[0]] + t
  }

  /** Both ends of `a + t` for an `a` starting with `rep` and a `t` ending
      with it. */
  lemma EndsWith(a: string, t: string, rep: string)
    requires |a| >= |rep| && a[..|rep|] == rep
    requires |t| >= |rep| && t[|t| - |rep|..] == rep
    ensures (a + t)[..|rep|] == rep && (a + t)[|a + t| - |rep|..] == rep
  {
    assert (a + t)[|a + t| - |rep|..] == t[|t| - |rep|..];
    assert (a + t)[..|rep|] == a[..|rep|];
  }

  /** Python's `s.split(pat)` for a non-empty `pat`. */
  function Split(s: string, pat: string): (pieces: seq<string>)
    requires pat != []
    ensures |pieces| >= 1
    decreases |s|
  {
    if |s| < |pat| then [s]
    else if s[..|pat|] == pat then [[]] + Split(s[|pat|..], pat)
    else
      var t := Split(s[1..], pat);
      [[s[0]] + t[0]] + t[1..]
  }

  /** Python's `sep.join(pieces)`. */
  function Join(pieces: seq<string>, sep: string): string {
    if |pieces| == 0 then []
    else if |pieces| == 1 then pieces[0]
    else pieces[0] + sep + Join(pieces[1..], sep)
  }

  /** No occurrence of `pat` starts inside `piece`, not even one that runs
      on into a `pat` placed right after it. */
  ghost predicate Clean(piece: string, pat: string) {
    forall i :: 0 <= i < |piece| ==> !MatchAt(piece + pat, i, pat)
  }

  /** `pieces` is the cut of `Join(pieces, pat)` at the leftmost
      non-overlapping occurrences of `pat`. */
  ghost predicate LeftmostCut(pieces: seq<string>, pat: string) {
    && |pieces| >= 1
    && (forall k :: 0 <= k < |pieces| - 1 ==> Clean(pieces[k], pat))
    && !Contains(pieces[|pieces| - 1], pat)
  }

  lemma JoinCons(x: string, rest: seq<string>, sep: string)
    requires |rest| >= 1
    ensures Join([x] + rest, sep) == x + sep + Join(rest, sep)
  {
    assert ([x] + rest)[1..] == rest;
  }

  lemma JoinExtendHead(c: char, t: seq<string>, sep: string)
    requires |t| >= 1
    ensures Join([[c] + t[0]] + t[1..], sep) == [c] + Join(t, sep)
  {
    if |t| > 1 {
      JoinCons([c] + t[0], t[1..], sep);
      JoinCons(t[0], t[1..], sep);
      assert [t[0]] + t[1..] == t;
    }
  }

  /** Gluing the pieces back with the pattern restores the text. */
  lemma {:induction false} JoinSplit(s: string, pat: string)
    requires pat != []
    ensures Join(Split(s, pat), pat) == s
    decreases |s|
  {
    if |s| < |pat| {
    } else if s[..|pat|] == pat {
      JoinSplit(s[|pat|..], pat);
      JoinSplitAtPattern(s[|pat|..], pat);
      assert s == pat + s[|pat|..];
    } else {
      JoinSplit(s[1..], pat);
      JoinSplitPastChar(s, pat);
    }
  }

  lemma JoinSplitAtPattern(rest: string, pat: string)
    requires pat != []
    requires Join(Split(rest, pat), pat) == rest
    ensures Join(Split(pat + rest, pat), pat) == pat + rest
  {
    var s := pat + rest;
    assert s[..|pat|] == pat && s[|pat|..] == rest;
    var t := Split(rest, pat);
    assert Split(s, pat) == [[]] + t;
    JoinCons([], t, pat);
    assert [] + pat == pat;
  }

  lemma JoinSplitPastChar(s: string, pat: string)
    requires pat != [] && |s| >= |pat| && s[..|pat|] != pat
    requires Join(Split(s[1..], pat), pat) == s[1..]
    ensures Join(Split(s, pat), pat) == s
  {
    SplitPastChar(s, pat);
    JoinOfExtendedHead(s, Split(s[1..], pat), pat);
  }

  lemma JoinOfExtendedHead(s: string, t: seq<string>, pat: string)
    requires |s| >= 1 && |t| >= 1 && Join(t, pat) == s[1..]
    ensures Join([[s[0]] + t[0]] + t[1..], pat) == s
  {
    JoinExtendHead(s[0], t, pat);
    assert [s[0]] + s[1..] == s;
  }

  /** Where the text does not start with the pattern, its first character
      joins the first piece of the rest. */
  lemma SplitPastChar(s: string, pat: string)
    requires pat != [] && |s| >= |pat| && s[..|pat|] != pat
    ensures Split(s, pat) == [[s[0]] + Split(s[1..], pat)[0]] + Split(s[1..], pat)[1..]
  {
  }

  /** Replacing is cutting at the occurrences and gluing with `rep`. */
  lemma {:induction false} ReplaceAllIsJoinOfSplit(s: string, pat: string, rep: string)
    requires pat != []
    ensures ReplaceAll(s, pat, rep) == Join(Split(s, pat), rep)
    decreases |s|
  {
    if |s| < |pat| {
    } else if s[..|pat|] == pat {
      ReplaceAllIsJoinOfSplit(s[|pat|..], pat, rep);
      var t := Split(s[|pat|..], pat);
      calc {
        Join(Split(s, pat), rep);
        Join([[]] + t, rep);
        { JoinCons([], t, rep); }
        [] + rep + Join(t, rep);
        { assert [] + rep == rep; }
        rep + ReplaceAll(s[|pat|..], pat, rep);
      }
    } else {
      ReplaceAllIsJoinOfSplit(s[1..], pat, rep);
      var t := Split(s[1..], pat);
      calc {
        Join(Split(s, pat), rep);
        Join([[s[0]] + t[0]] + t[1..], rep);
        { JoinExtendHead(s[0], t, rep); }
        [s[0]] + ReplaceAll(s[1..], pat, rep);
      }
    }
  }

  lemma CleanShift(c: char, q: string, pat: string)
    ensures Clean([c] + q, pat) ==> Clean(q, pat)
    ensures Clean(q, pat) && !MatchAt([c] + q + pat, 0, pat) ==> Clean([c] + q, pat)
  {
    assert [c] + q + pat == [c] + (q + pat);
    if Clean([c] + q, pat) {
      forall i | 0 <= i < |q|
        ensures !MatchAt(q + pat, i, pat)
      {
        MatchAtShift(c, q + pat, i, pat);
      }
    }
    if Clean(q, pat) && !MatchAt([c] + q + pat, 0, pat) {
      forall i | 1 <= i < |[c] + q|
        ensures !MatchAt([c] + q + pat, i, pat)
      {
        MatchAtShift(c, q + pat, i - 1, pat);
      }
    }
  }

  /** A clean piece in front of a leftmost cut gives a leftmost cut. */
  lemma LeftmostCutCons(x: string, t: seq<string>, pat: string)
    requires LeftmostCut(t, pat) && Clean(x, pat)
    ensures LeftmostCut([x] + t, pat)
  {
    var p := [x] + t;
    assert p[|p| - 1] == t[|t| - 1];
    forall k | 0 <= k < |p| - 1
      ensures Clean(p[k], pat)
    {
      if k > 0 {
        assert p[k] == t[k - 1];
      }
    }
  }

  lemma LeftmostCutTail(t: seq<string>, pat: string)
    requires LeftmostCut(t, pat) && |t| > 1
    ensures LeftmostCut(t[1..], pat)
  {
    assert forall k :: 0 <= k < |t| - 2 ==> t[1..][k] == t[k + 1];
  }

  /** A first piece that grows by one character stays clean when the text
      does not start with the pattern. */
  lemma HeadClean(s: string, h: string, pat: string, tail: string)
    requires pat != [] && |s| >= |pat| && s[..|pat|] != pat
    requires Clean(h, pat) && s == [s[0]] + h + pat + tail
    ensures Clean([s[0]] + h, pat)
  {
    var head := [s[0]] + h;
    assert s == (head + pat) + tail;
    assert (head + pat)[..|pat|] == s[..|pat|];
    CleanShift(s[0], h, pat);
  }

  /** The cut `Split` makes is at the leftmost occurrences. */
  lemma {:induction false} SplitIsLeftmostCut(s: string, pat: string)
    requires pat != []
    ensures LeftmostCut(Split(s, pat), pat)
    decreases |s|
  {
    var p := Split(s, pat);
    if |s| < |pat| {
    } else if s[..|pat|] == pat {
      var t := Split(s[|pat|..], pat);
      SplitIsLeftmostCut(s[|pat|..], pat);
      assert p == [[]] + t;
      LeftmostCutCons([], t, pat);
    } else {
      SplitIsLeftmostCut(s[1..], pat);
      JoinSplit(s[1..], pat);
      SplitPastChar(s, pat);
      LeftmostCutPastChar(s, Split(s[1..], pat), pat);
    }
  }

  /** The leftmost cut of the rest, with the first character put in front
      of its first piece, is a leftmost cut of the whole text. */
  lemma LeftmostCutPastChar(s: string, t: seq<string>, pat: string)
    requires pat != [] && |s| >= |pat| && s[..|pat|] != pat
    requires LeftmostCut(t, pat) && Join(t, pat) == s[1..]
    ensures LeftmostCut([[s[0]] + t[0]] + t[1..], pat)
  {
    if |t| == 1 {
      SinglePiecePastChar(s, t, pat);
    } else {
      ManyPiecesPastChar(s, t, pat);
    }
  }

  lemma SinglePiecePastChar(s: string, t: seq<string>, pat: string)
    requires pat != [] && |s| >= |pat| && s[..|pat|] != pat
    requires LeftmostCut(t, pat) && Join(t, pat) == s[1..] && |t| == 1
    ensures LeftmostCut([[s[0]] + t[0]] + t[1..], pat)
  {
    assert [[s[0]] + t[0]] + t[1..] == [s] by {
      assert [s[0]] + s[1..] == s;
    }
  }

  lemma ManyPiecesPastChar(s: string, t: seq<string>, pat: string)
    requires pat != [] && |s| >= |pat| && s[..|pat|] != pat
    requires LeftmostCut(t, pat) && Join(t, pat) == s[1..] && |t| > 1
    ensures LeftmostCut([[s[0]] + t[0]] + t[1..], pat)
  {
    var rest := t[1..];
    assert [t[0]] + rest == t;
    JoinCons(t[0], rest, pat);
    PrependFirst(s, t[0] + pat, Join(rest, pat));
    HeadClean(s, t[0], pat, Join(rest, pat));
    LeftmostCutTail(t, pat);
    LeftmostCutCons([s[0]] + t[0], rest, pat);
  }

  lemma PrependFirst(s: string, a: string, b: string)
    requires |s| >= 1 && s[1..] == a + b
    ensures s == [s[0]] + a + b
  {
    assert [s[0]] + s[1..] == s;
  }

  /** The leftmost cut is unique: any pieces with no earlier occurrence that
      glue back to `s` are `Split(s, pat)`. */
  lemma {:induction false} LeftmostCutIsSplit(s: string, pieces: seq<string>, pat: string)
    requires pat != []
    requires LeftmostCut(pieces, pat)
    requires Join(pieces, pat) == s
    ensures Split(s, pat) == pieces
    decreases |s|
  {
    if |pieces| == 1 {
      SplitWithoutMatch(s, pat);
    } else {
      var rest := pieces[1..];
      JoinCons(pieces[0], rest, pat);
      assert [pieces[0]] + rest == pieces;
      LeftmostCutTail(pieces, pat);
      if pieces[0] == [] {
        CutAtPattern(s, Join(rest, pat), pat);
        LeftmostCutIsSplit(s[|pat|..], rest, pat);
      } else {
        var c, q := pieces[0][0], pieces[0][1..];
        assert pieces[0] == [c] + q;
        CutPastChar(s, c, q, rest, pat);
        LeftmostCutIsSplit(s[1..], [q] + rest, pat);
        assert [[c] + q] + rest == pieces;
      }
    }
  }

  /** Text without the pattern is not cut. */
  lemma {:induction false} SplitWithoutMatch(s: string, pat: string)
    requires pat != [] && !Contains(s, pat)
    ensures Split(s, pat) == [s]
    decreases |s|
  {
    if |s| >= |pat| {
      assert !MatchAt(s, 0, pat);
      forall i | MatchAt(s[1..], i, pat)
        ensures false
      {
        MatchInTail(s, i + 1, pat);
      }
      SplitWithoutMatch(s[1..], pat);
      assert [s[0]] + s[1..] == s;
    }
  }

  /** Text that starts with the pattern is cut right after it. */
  lemma CutAtPattern(s: string, rest: string, pat: string)
    requires pat != [] && s == [] + pat + rest
    ensures |s| >= |pat| && s[..|pat|] == pat && s[|pat|..] == rest
    ensures Split(s, pat) == [[]] + Split(rest, pat)
  {
    assert s[..|pat|] == pat && s[|pat|..] == rest;
  }

  /** Text that starts with a clean piece's first character is not cut
      there, and the rest of it is the same cut minus that character. */
  lemma CutPastChar(s: string, c: char, q: string, rest: seq<string>, pat: string)
    requires pat != [] && |rest| >= 1
    requires s == [c] + q + pat + Join(rest, pat)
    requires Clean([c] + q, pat) && LeftmostCut(rest, pat)
    ensures s[1..] == Join([q] + rest, pat) && LeftmostCut([q] + rest, pat)
    ensures Split(s, pat) == [[c] + Split(s[1..], pat)[0]] + Split(s[1..], pat)[1..]
  {
    assert s[..|pat|] == ([c] + q + pat)[..|pat|];
    assert !MatchAt([c] + q + pat, 0, pat);
    CleanShift(c, q, pat);
    JoinCons(q, rest, pat);
    assert s[1..] == q + pat + Join(rest, pat);
    LeftmostCutCons(q, rest, pat);
  }

  /** What `str.replace` computes, stated without its scan: cut `s` at the
      leftmost occurrences of `pat` and put `rep` in each cut. */
  lemma ReplaceAllByCut(s: string, pieces: seq<string>, pat: string, rep: string)
    requires pat != []
    requires LeftmostCut(pieces, pat) && Join(pieces, pat) == s
    ensures ReplaceAll(s, pat, rep) == Join(pieces, rep)
  {
    LeftmostCutIsSplit(s, pieces, pat);
    ReplaceAllIsJoinOfSplit(s, pat, rep);
  }

  /** Replacing a pattern with itself changes nothing. */
  lemma ReplaceWithItself(s: string, pat: string)
    ensures ReplaceAll(s, pat, pat) == s
  {
    if pat == [] {
      // "".replace("", "") is "" and "ab".replace("", "") is "ab".
      ReplaceEmptyWithEmpty(s);
    } else {
      ReplaceAllIsJoinOfSplit(s, pat, pat);
      JoinSplit(s, pat);
    }
  }

  lemma {:induction false} ReplaceEmptyWithEmpty(s: string)
    ensures InsertEverywhere(s, []) == s
  {
    if s != [] {
      ReplaceEmptyWithEmpty(s[1..]);
    }
  }
}

=== FILE: results.dfy ===
/** Failure-carrying values shared by every module of the model: Python's
    exceptions and `None` returns become `Err` and `None` here. */
module Results {

  datatype Option<+T> = None | Some(value: T)

  datatype Result<+T, +E> = Ok(value: T) | Err(error: E) {
    predicate IsFailure() {
      Err?
    }

    function PropagateFailure<U>(): Result<U, E>
      requires Err?
    {
      Err(error)
    }

    function Extract(): T
      requires Ok?
    {
      value
    }
  }
}

=== FILE: text.dfy ===
/** Character classes, case mapping, whitespace stripping, substring search
    and decimal text of integers: the parts of Python's `str` the renamer
    relies on. Case mapping and digits are ASCII only. */
module Text {
  import opened Results

  /** The characters Python's `str.isspace` (and so `str.strip()`) treats as
      whitespace. */
  predicate IsSpace(c: char) {
    c == ' ' || ('\t' <= c <= '\r') || ('\U{1C}' <= c <= '\U{1F}')
    || c == '\U{85}' || c == '\U{A0}' || c == '\U{1680}'
    || ('\U{2000}' <= c <= '\U{200A}') || c == '\U{2028}' || c == '\U{2029}'
    || c == '\U{202F}' || c == '\U{205F}' || c == '\U{3000}'
  }

  predicate IsDigit(c: char) {
    '0' <= c <= '9'
  }

  predicate IsAsciiLetter(c: char) {
    ('a' <= c <= 'z') || ('A' <= c <= 'Z')
  }

  /** The word characters of the regular-expression class `\w`, restricted
      to ASCII. */
  predicate IsWordChar(c: char) {
    IsAsciiLetter(c) || IsDigit(c) || c == '_'
  }

  predicate AllSpace(s: string) {
    forall i :: 0 <= i < |s| ==> IsSpace(s[i])
  }

  predicate AllDigits(s: string) {
    forall i :: 0 <= i < |s| ==> IsDigit(s[i])
  }

  // ---------------------------------------------------------------------
  // Case mapping
  // ---------------------------------------------------------------------

  function ToLower(c: char): (r: char)
    ensures 'A' <= c <= 'Z' ==> r != c && 'a' <= r <= 'z'
    ensures !('A' <= c <= 'Z') ==> r == c
  {
    if 'A' <= c <= 'Z' then (c as int + 32) as char else c
  }

  /** `str.lower()`. */
  function Lower(s: string): (r: string)
    ensures |r| == |s|
    ensures forall i :: 0 <= i < |s| ==> r[i] == ToLower(s[i])
  {
    if s == [] then [] else [ToLower(s[0])] + Lower(s[1..])
  }

  lemma {:induction false} LowerIdempotent(s: string)
    ensures Lower(Lower(s)) == Lower(s)
  {
    var l := Lower(s);
    var ll := Lower(l);
    forall i | 0 <= i < |s|
      ensures ll[i] == l[i]
    {
      assert ToLower(ToLower(s[i])) == ToLower(s[i]);
    }
  }

  lemma {:induction false} LowerAppend(a: string, b: string)
    ensures Lower(a + b) == Lower(a) + Lower(b)
  {
    if a == [] {
      assert a + b == b;
    } else {
      assert (a + b)[0] == a[0] && (a + b)[1..] == a[1..] + b;
      LowerAppend(a[1..], b);
    }
  }

  // ---------------------------------------------------------------------
  // Stripping
  // ---------------------------------------------------------------------

  /** `r` is what is left of `s` after removing the `i` characters before it
      and everything after it, all of them whitespace. */
  ghost predicate StrippedAt(s: string, i: int, r: string) {
    0 <= i && i + |r| <= |s| && s[i..i + |r|] == r
    && AllSpace(s[..i]) && AllSpace(s[i + |r|..])
  }

  function StripLeft(s: string): (r: string)
    ensures |r| <= |s| && r == s[|s| - |r|..]
    ensures AllSpace(s[..|s| - |r|])
    ensures r == [] || !IsSpace(r[0])
  {
    if s == [] || !IsSpace(s[0]) then s
    else
      var t := StripLeft(s[1..]);
      SpaceBeforeTail(s, t);
      t
  }

  /** A space in front of a tail cut after spaces is cut too. */
  lemma SpaceBeforeTail(s: string, t: string)
    requires s != [] && IsSpace(s[0])
    requires |t| <= |s| - 1 && t == s[1..][|s| - 1 - |t|..] && AllSpace(s[1..][..|s| - 1 - |t|])
    ensures t == s[|s| - |t|..] && AllSpace(s[..|s| - |t|])
  {
    assert s[..|s| - |t|] == [s[0]] + s[1..][..|s| - 1 - |t|];
  }

  function StripRight(s: string): (r: string)
    ensures |r| <= |s| && r == s[..|r|]
    ensures AllSpace(s[|r|..])
    ensures r == [] || !IsSpace(r[|r| - 1])
  {
    if s == [] || !IsSpace(s[|s| - 1]) then s
    else
      var t := StripRight(s[..|s| - 1]);
      SpaceAfterHead(s, t);
      t
  }

  /** A space after a head cut before spaces is cut too. */
  lemma SpaceAfterHead(s: string, t: string)
    requires s != [] && IsSpace(s[|s| - 1])
    requires |t| <= |s| - 1 && t == s[..|s| - 1][..|t|] && AllSpace(s[..|s| - 1][|t|..])
    ensures t == s[..|t|] && AllSpace(s[|t|..])
  {
    assert s[|t|..] == s[..|s| - 1][|t|..] + [s[|s| - 1]];
  }

  /** `str.strip()`: the text without its leading and trailing whitespace. */
  function Strip(s: string): (r: string)
    ensures exists i :: StrippedAt(s, i, r)
    ensures r == [] || (!IsSpace(r[0]) && !IsSpace(r[|r| - 1]))
  {
    var left := StripLeft(s);
    var r := StripRight(left);
    StrippedFromBothEnds(s, left, r);
    r
  }

  /** Cutting whitespace from the front and then from the back leaves a
      piece of the original with no whitespace at either end. */
  lemma StrippedFromBothEnds(s: string, left: string, r: string)
    requires |left| <= |s| && left == s[|s| - |left|..] && AllSpace(s[..|s| - |left|])
    requires left == [] || !IsSpace(left[0])
    requires |r| <= |left| && r == left[..|r|] && AllSpace(left[|r|..])
    requires r == [] || !IsSpace(r[|r| - 1])
    ensures StrippedAt(s, |s| - |left|, r)
    ensures r == [] || (!IsSpace(r[0]) && !IsSpace(r[|r| - 1]))
  {
    var i := |s| - |left|;
    assert s[i + |r|..] == left[|r|..];
    assert s[i..i + |r|] == left[..|r|];
    if r != [] {
      assert r[0] == left[0];
    }
  }

  lemma SplitAllSpace(s: string, k: int)
    requires 0 <= k <= |s|
    requires AllSpace(s[..k]) && AllSpace(s[k..])
    ensures AllSpace(s)
  {
    forall j | 0 <= j < |s|
      ensures IsSpace(s[j])
    {
      if j < k {
        assert s[..k][j] == s[j];
      } else {
        assert s[k..][j - k] == s[j];
      }
    }
  }

  lemma AllSpaceStripsToEmpty(s: string)
    requires AllSpace(s)
    ensures Strip(s) == []
  {
    var r := Strip(s);
    var i :| StrippedAt(s, i, r);
  }

  /** Only text made of whitespace strips to nothing. */
  lemma StripEmptyIff(s: string)
    ensures Strip(s) == [] <==> AllSpace(s)
  {
    var r := Strip(s);
    var i :| StrippedAt(s, i, r);
    if r == [] {
      SplitAllSpace(s, i);
    }
    if AllSpace(s) {
      AllSpaceStripsToEmpty(s);
    }
  }

  /** A stripped text that starts and ends with non-whitespace begins at the
      first non-whitespace character of `s` and ends after the last one. */
  lemma StrippedBounds(s: string, i: int, r: string)
    requires StrippedAt(s, i, r)
    requires r != [] && !IsSpace(r[0]) && !IsSpace(r[|r| - 1])
    ensures !IsSpace(s[i]) && forall k :: 0 <= k < i ==> IsSpace(s[k])
    ensures !IsSpace(s[i + |r| - 1]) && forall k :: i + |r| <= k < |s| ==> IsSpace(s[k])
  {
    assert s[i] == r[0];
    assert s[i + |r| - 1] == r[|r| - 1];
    forall k | 0 <= k < i
      ensures IsSpace(s[k])
    {
      assert s[..i][k] == s[k];
    }
    forall k | i + |r| <= k < |s|
      ensures IsSpace(s[k])
    {
      assert s[i + |r|..][k - i - |r|] == s[k];
    }
  }

  /** The stripped text is determined by the two conditions `Strip` ensures:
      only whitespace is removed, and none is left at either end. */
  lemma StripUnique(s: string, i: int, r: string)
    requires StrippedAt(s, i, r)
    requires r == [] || (!IsSpace(r[0]) && !IsSpace(r[|r| - 1]))
    ensures r == Strip(s)
  {
    var r' := Strip(s);
    var i' :| StrippedAt(s, i', r');
    StripEmptyIff(s);
    if r == [] {
      SplitAllSpace(s, i);
    } else {
      StrippedBounds(s, i, r);
      assert !AllSpace(s);
      SameStripped(s, i, r, i', r');
    }
  }

  lemma SameStripped(s: string, i: int, r: string, i': int, r': string)
    requires StrippedAt(s, i, r) && r != [] && !IsSpace(r[0]) && !IsSpace(r[|r| - 1])
    requires StrippedAt(s, i', r') && r' != [] && !IsSpace(r'[0]) && !IsSpace(r'[|r'| - 1])
    ensures r == r'
  {
    StrippedBounds(s, i, r);
    StrippedBounds(s, i', r');
    SameBounds(s, i, i + |r| - 1, i', i' + |r'| - 1);
  }

  /** Two pieces of `s` that both start at its first non-whitespace
      character and end at its last are the same piece. */
  lemma SameBounds(s: string, a: int, b: int, a': int, b': int)
    requires 0 <= a <= b < |s| && 0 <= a' <= b' < |s|
    requires !IsSpace(s[a]) && !IsSpace(s[b]) && !IsSpace(s[a']) && !IsSpace(s[b'])
    requires forall k :: 0 <= k < a ==> IsSpace(s[k])
    requires forall k :: b < k < |s| ==> IsSpace(s[k])
    requires forall k :: 0 <= k < a' ==> IsSpace(s[k])
    requires forall k :: b' < k < |s| ==> IsSpace(s[k])
    ensures a == a' && b == b'
  {
  }

  lemma {:induction false} StripIdempotent(s: string)
    ensures Strip(Strip(s)) == Strip(s)
  {
    var r := Strip(s);
    assert StrippedAt(r, 0, r);
    StripUnique(r, 0, r);
  }

  // ---------------------------------------------------------------------
  // Substring search
  // ---------------------------------------------------------------------

  /** `pat` occurs in `s` starting at index `i`. */
  predicate MatchAt(s: string, i: int, pat: string) {
    0 <= i && i + |pat| <= |s| && s[i..i + |pat|] == pat
  }

  /** Python's `pat in s`. */
  function Contains(s: string, pat: string): (b: bool)
    ensures b <==> exists i :: MatchAt(s, i, pat)
    decreases |s|
  {
    if |s| < |pat| then false
    else if s[..|pat|] == pat then
      assert MatchAt(s, 0, pat);
      true
    else
      var b := Contains(s[1..], pat);
      if b then
        var i :| MatchAt(s[1..], i, pat);
        MatchInTail(s, i + 1, pat);
        true
      else
        NoMatchInTail(s, pat);
        false
  }

  /** Past the first character, `s` matches where its tail does. */
  lemma MatchInTail(s: string, i: int, pat: string)
    requires s != [] && i >= 1
    ensures MatchAt(s, i, pat) <==> MatchAt(s[1..], i - 1, pat)
  {
    assert s == [s[0]] + s[1..];
    MatchAtShift(s[0], s[1..], i - 1, pat);
  }

  lemma NoMatchInTail(s: string, pat: string)
    requires |s| >= |pat| && s[..|pat|] != pat
    requires forall i :: !MatchAt(s[1..], i, pat)
    ensures forall i :: !MatchAt(s, i, pat)
  {
    forall i
      ensures !MatchAt(s, i, pat)
    {
      if i >= 1 {
        MatchInTail(s, i, pat);
      }
    }
  }

  lemma MatchAtShift(c: char, s: string, i: int, pat: string)
    requires 0 <= i
    ensures MatchAt([c] + s, i + 1, pat) <==> MatchAt(s, i, pat)
  {
    if i + |pat| <= |s| {
      assert ([c] + s)[i + 1..i + 1 + |pat|] == s[i..i + |pat|];
    }
  }

  // ---------------------------------------------------------------------
  // Decimal text of integers
  // ---------------------------------------------------------------------

  function DigitChar(d: nat): (c: char)
    requires d < 10
    ensures IsDigit(c)
  {
    ('0' as int + d) as char
  }

  function DigitValue(c: char): (d: nat)
    requires IsDigit(c)
    ensures d < 10 && DigitChar(d) == c
  {
    c as int - '0' as int
  }

  /** Python's `int(s)` for a non-empty run of ASCII digits. */
  function DigitsValue(s: string): nat
    requires AllDigits(s)
  {
    if s == [] then 0 else DigitsValue(s[..|s| - 1]) * 10 + DigitValue(s[|s| - 1])
  }

  /** Python's `str(n)` for a non-negative integer. */
  function NatText(n: nat): (r: string)
    ensures |r| >= 1 && AllDigits(r)
    ensures |r| > 1 ==> r[0] != '0'
  {
    if n < 10 then [DigitChar(n)] else NatText(n / 10) + [DigitChar(n % 10)]
  }

  /** Python's `str(i)` for any integer. */
  function IntText(i: int): (r: string)
    ensures |r| >= 1
    ensures i >= 0 <==> IsDigit(r[0])
  {
    if i < 0 then "-" + NatText(-i) else NatText(i)
  }

  /** Reads back what `IntText` writes: an optional '-' followed by digits. */
  function ParseInt(s: string): Option<int> {
    if |s| >= 2 && s[0] == '-' && AllDigits(s[1..]) then Some(0 - DigitsValue(s[1..]) as int)
    else if |s| >= 1 && AllDigits(s) then Some(DigitsValue(s))
    else None
  }

  lemma {:induction false} NatTextValue(n: nat)
    ensures DigitsValue(NatText(n)) == n
  {
    if n >= 10 {
      var t := NatText(n / 10) + [DigitChar(n % 10)];
      assert t[..|t| - 1] == NatText(n / 10);
      NatTextValue(n / 10);
    }
  }

  /** `str` of an integer reads back as the same integer, so distinct
      integers have distinct text. */
  lemma IntTextRoundTrip(i: int)
    ensures ParseInt(IntText(i)) == Some(i)
  {
    if i < 0 {
      NegativeRoundTrip(-i);
    } else {
      NonNegativeRoundTrip(i);
    }
  }

  lemma NegativeRoundTrip(n: nat)
    ensures ParseInt("-" + NatText(n)) == Some(0 - n)
  {
    NatTextValue(n);
    ParseNegative(NatText(n));
  }

  lemma NonNegativeRoundTrip(n: nat)
    ensures ParseInt(NatText(n)) == Some(n)
  {
    NatTextValue(n);
    ParseDigits(NatText(n));
  }

  lemma ParseDigits(s: string)
    requires |s| >= 1 && AllDigits(s)
    ensures ParseInt(s) == Some(DigitsValue(s))
  {
    assert IsDigit(s[0]);
  }

  lemma ParseNegative(s: string)
    requires |s| >= 1 && AllDigits(s)
    ensures ParseInt("-" + s) == Some(0 - DigitsValue(s) as int)
  {
    var t := "-" + s;
    assert t[0] == '-' && t[1..] == s;
  }

  lemma IntTextInjective(i: int, j: int)
    requires IntText(i) == IntText(j)
    ensures i == j
  {
    IntTextRoundTrip(i);
    IntTextRoundTrip(j);
  }
}
